=== FILE: README.md ===
# SessionValues: a verified model

`SessionValues` is a small WebExtension library: a registry of named values
that lives in memory, mirrors every change into `browser.storage.session`,
and reloads the values from the store when a background page restarts. Each
declared key becomes a property of the registry. Assigning to the property
stores the new value. With auto-save on, objects and arrays are wrapped in
deep proxies, so that changing them in place stores them again. Sets and
Maps are meant to get a proxy of their own that saves on their mutating
methods; as written they get the deep proxy too (see "Findings"). Sets and
Maps travel through the store as arrays, by way of default
serializers.

This project models the core of `SessionValues.js` in Dafny and proves
properties of the model. It has four modules:

- `JsValues` (`values.dfy`): the JavaScript values a registry holds,
  including Sets and Maps, and the JSON round trip
  `JSON.parse(JSON.stringify(...))` that every store write goes through.
- `Codecs` (`codecs.dfy`): the default Set and Map serializers and
  deserializers, the `new Set` and `new Map` constructors they rely on, and
  the rule `$defineItem` uses to pick a codec.
- `Tracking` (`tracking.dfy`): the proxies `$deepProxy` and `$proxySetOrMap`.
  Each proxy is explicit state: the memo table `mapStore` and the
  `arrayChanging` flag. Each intercepted operation is a function that
  returns the new state plus the `save(owner)` calls it made, in order.
- `Registry` (`registry.dfy`): the registry as a state machine.
  - `Session` holds the values, the deserializers and serializers, the
    pending keys (`$toBeLoadedKeys`) and the waiting resolvers
    (`$resolveLoaded`).
  - It also holds the store contents, every store write in order, and every
    call of the resolvers.
  - Each `await` is one atomic store read.
  - `Valid` is the invariant every transition keeps. Among other things it
    says that every nested proxy a memo table holds stands for a property
    whose current value is an object (`Tracking.Coherent`).

Where the code as written does something other than what it evidently
intends, the model has both versions. The `...AsWritten` member follows
the code. The other member is the corrected one, and the rest of the model
uses it (see "Findings").

Some behaviour of the code differs from a plain reading of what it is meant
to do, and the model follows the code:

- Redefining a declared key overwrites its value and deserializer, then fails
  with a TypeError from `Object.defineProperty`. The key does not become
  pending again.
- `$load` removes the key from the pending set before it decodes. A
  deserializer that raises still leaves the key no longer pending.
- The setter keeps the new value in memory even when its serializer raises,
  and then writes nothing.
- `$loadAll` skips entries whose stored value is `undefined`. `$load` does
  not skip them: it decodes whatever the store returned for the key.

## Model

| member | source | states |
|---|---|---|
| JsValues.ToJsonIsJson | SessionValues.js:94-96 | What a store write carries is plain JSON: no `undefined`, Set or Map anywhere inside it. A value serializes to nothing exactly when it is `undefined`. |
| JsValues.IsObjectExactly | SessionValues.js:116-118 | `$isObject` is false exactly for `undefined`, `null`, booleans, numbers and strings; every array, object, Set and Map counts as an object. |
| JsValues.ToJson | SessionValues.js:96 | The JSON round trip drops exactly `undefined`. A Set or Map becomes `{}`. An array keeps its length, with `undefined` elements turned into `null`. An object keeps exactly its properties whose value is not `undefined`. |
| JsValues.ArrayOfStableIsStable | SessionValues.js:96 | An array whose elements each survive the JSON round trip survives it too. |
| Codecs.Iterate | SessionValues.js:208-210 | Spreading a value succeeds exactly for arrays, strings, Sets and Maps. Spreading an array gives its elements, a string its characters, a Set its members and a Map its `[key, value]` pairs, in order. |
| Codecs.AddMember | SessionValues.js:212-214 | Adding to a Set keeps it free of duplicates and adds exactly the new member. A present member leaves the Set unchanged; a new one goes last. |
| Codecs.SetFrom | SessionValues.js:212-214 | `new Set(xs)` has no duplicates and exactly the members of `xs`, in the order of their first occurrence in `xs`. |
| Codecs.SetFromDistinct | SessionValues.js:212-214 | `new Set(xs)` over a duplicate-free sequence keeps it, order included. |
| Codecs.MapPut | SessionValues.js:220-222 | `Map.set` keeps keys unique and adds exactly the new key. A new key is appended with its value. |
| Codecs.MapPutGet | SessionValues.js:220-222 | After `set(k, v)`, `get(k)` is `v`, and every other key reads as before. |
| Codecs.MapFrom | SessionValues.js:220-222 | `new Map(pairs)` has unique keys and exactly the keys of `pairs`. |
| Codecs.MapFromLastValue | SessionValues.js:220-222 | In `new Map(pairs)` each key maps to the value of its last pair: a later pair overwrites an earlier one. |
| Codecs.MapGet | SessionValues.js:220-222 | Looking a key up in a Map finds a value exactly for the keys the Map holds, and the value found is one the Map holds under that key. |
| Codecs.MapFromDistinct | SessionValues.js:220-222 | `new Map(pairs)` over pairs with distinct keys keeps them, order included. |
| Codecs.EntryOf | SessionValues.js:220-222 | The Map constructor rejects a primitive item with a TypeError and accepts any object. From a pair array it takes the key at index 0 and the value at index 1. |
| Codecs.EntriesOf | SessionValues.js:220-222 | `new Map(items)` accepts the items exactly when each is an object, and reads key and value from each one. |
| Codecs.SerializeSet | SessionValues.js:208-210 | The Set serializer succeeds exactly when its argument is iterable, and gives the array of what it iterates. |
| Codecs.DeserializeSet | SessionValues.js:212-214 | The Set deserializer gives a duplicate-free Set holding exactly the elements of an array. `undefined` and `null` give an empty Set, and any other non-iterable raises. |
| Codecs.SerializeMap | SessionValues.js:216-218 | The Map serializer succeeds exactly for values that have `entries()`. It gives `[key, value]` pairs for a Map, `[index, element]` for an array and `[member, member]` for a Set, in order. |
| Codecs.DeserializeMap | SessionValues.js:220-222 | The Map deserializer gives a Map without duplicate keys, and an empty Map for `undefined` or `null`. An array is accepted exactly when every item is an object. The Map's keys are then exactly the items' keys, each mapped to the value of its last item. |
| Codecs.Encode | SessionValues.js:95 | No serializer passes the value through, and a custom one's result is what gets stored. The Set serializer turns a Set into its member array. The Map serializer turns a Map into its `[key, value]` pairs, in order. Only a default serializer given a value it cannot iterate raises. |
| Codecs.Decode | SessionValues.js:254 | No deserializer passes the value through, and a custom one's result is the value. The default deserializers give a well-formed Set or Map, accept `undefined` and `null`, and are the only ones that raise. |
| Codecs.SetRoundTrip | SessionValues.js:208-214 | Deserializing a serialized Set gives back the same Set. |
| Codecs.MapRoundTrip | SessionValues.js:216-222 | Deserializing a serialized Map gives back the same Map. |
| Codecs.MapRoundTripLookups | SessionValues.js:216-222 | After the round trip, every key of a Map looks up the same value as before. |
| Codecs.DefaultEncoder | SessionValues.js:71-82 | A supplied serializer is kept. Without one, a Set gets the Set serializer and a Map the Map serializer. Other values get none. |
| Codecs.DefaultDecoder | SessionValues.js:71-82 | A supplied deserializer is kept. Without one, a Set gets the Set deserializer and a Map the Map deserializer. Other values get none. |
| Codecs.DefaultCodecsRoundTrip | SessionValues.js:71-82 | For a Set or Map declared without codecs, the chosen deserializer inverts the chosen serializer. |
| Tracking.ClassifyAsWritten | SessionValues.js:104-118 | As written, a value gets a deep proxy exactly when it is an object, and never a Set/Map proxy. |
| Tracking.Classify | SessionValues.js:104-113 | Evident dispatch: exactly the objects are wrapped, and exactly the Sets and Maps get the Set/Map proxy. |
| Tracking.Wrap | SessionValues.js:104-113 | A wrapped value reads as the value given and saves on behalf of its key. It is fresh and idle, and it is wrapped exactly when it is an object. |
| Tracking.WrapAsWritten | SessionValues.js:104-118 | As written, every object is wrapped, always by a deep proxy. |
| Tracking.Rewrap | SessionValues.js:226 | Re-assigning a wrapped value leaves its contents unchanged. A deep proxy gets one more proxy layer around it. Anything else is left as it is. |
| Tracking.ArrayLength | SessionValues.js:165 | A value assigned to an array's `length` is valid exactly when it converts to a whole number below 2^32. `null` counts as 0, booleans as 0 or 1, `undefined` is invalid. |
| Tracking.Lookup | SessionValues.js:131 | `Reflect.get` reads an object's own property, or `undefined` when absent. It reads an array element inside the bounds, `undefined` outside them, and the array's length under `length`. |
| Tracking.SetOn | SessionValues.js:165 | `Reflect.set`: an array `length` that is not a valid length raises a RangeError, and nothing else raises. A valid one resizes the array to that length. An object property or array index then reads back as written, and the other properties of an object read as before. |
| Tracking.DeleteOn | SessionValues.js:173 | `Reflect.deleteProperty` refuses only an array's `length`. A deleted property reads as `undefined` afterwards, every other property reads as before, and an array keeps its length. |
| Tracking.ReadLayers | SessionValues.js:126-157 | The `get` trap leaves every layer's batch flag alone and never lowers the proxy counter. A plain answer is the property's current value. |
| Tracking.Read | SessionValues.js:126-157 | Reading through a deep proxy changes only its memo tables and proxy counter. A plain answer is the property's current value. |
| Tracking.ReadLayersStable | SessionValues.js:127-157 | Reading a property a second time through the layers returns the same answer and changes nothing more. |
| Tracking.ReadIsStable | SessionValues.js:127-148 | The memo table makes repeated reads return the identical nested proxy. |
| Tracking.ReadLayersCoherent | SessionValues.js:127-154 | A read keeps every memoised proxy standing for an object-valued property. A proxy it answers with stands for an object. |
| Tracking.ReadLayersFreshIds | SessionValues.js:145-148 | A read never reuses a proxy number. Each memo entry afterwards is either one it found or numbered at or past the old counter, which is above every number in use before. The counter stays above every number handed out. |
| Tracking.ReadKeepsInvariants | SessionValues.js:126-157 | Reading through a proxy keeps its memo tables coherent and its proxy numbers below the counter. A proxy it answers with stands for an object. |
| Tracking.IdleCount | SessionValues.js:167-168 | The layers that save are at most all of them. If every layer is batching none saves; if none is, all save. |
| Tracking.AfterWrite | SessionValues.js:166 | After a write the memo table marks the written property `NO_PROXY` and keeps every other entry unchanged. Given a cut-off length, it also drops the entries of indices at or past it, and only those. |
| Tracking.CutBy | SessionValues.js:165 | Exactly a valid write of an array's `length` cuts the array off, at the new length. |
| Tracking.SetMemberWith | SessionValues.js:159-170 | A write reaches the target and updates every layer's memo table as `AfterWrite` says. Each layer outside a batch saves the owner once. With a single layer: one save, or none while batching. A write that raises changes nothing. |
| Tracking.SetMemberAsWritten | SessionValues.js:166 | As written, a write touches only the written property's memo entry in each layer. |
| Tracking.SetOnKeeps | SessionValues.js:165 | A write leaves every other object-valued property as it was, except the array elements a `length` write cuts off. |
| Tracking.SetMemberKeepsCoherent | SessionValues.js:159-170 | With the cut-off indices dropped from the memo tables, a write keeps every memoised proxy standing for an object. |
| Tracking.SetMember | SessionValues.js:159-170 | Corrected `set` trap: it keeps the memo tables coherent. After a `length` write no memo table holds an index at or past the new length. |
| Tracking.DeleteMember | SessionValues.js:172-178 | A delete reaches the target and drops the property from every memo table. It saves as a write does, even when the delete was refused. It keeps the memo tables coherent. |
| Tracking.RunInternal | SessionValues.js:134-137 | While every layer is inside a batch, none of the mutator's element writes saves. With the corrected `set` trap the memo tables stay coherent. |
| Tracking.BulkAsWritten | SessionValues.js:132-140 | A completed mutator whose callback calls no mutator on the same proxy saves once per layer and lowers every flag. One that raises saves nothing and leaves every flag raised. |
| Tracking.Bulk | SessionValues.js:132-140 | With a `finally`, a mutator whose callback calls no mutator on the same proxy saves once per layer whether it completes or raises, and leaves no flag raised. The memo tables stay coherent. |
| Tracking.ThrowingBulkSilencesLaterWrites | SessionValues.js:134-137 | As written, a mutator that raised saves nothing. The next write through the same proxy is not saved either, and no later run of writes and deletes saves or lowers the flag. |
| Tracking.WritesAfterBulkAreSaved | SessionValues.js:132-140 | Corrected, a write after any mutator call, completed or not, completes unless it is an invalid `length`, and then saves the owner again. |
| Tracking.StuckFlagExample | SessionValues.js:134-137 | Concrete case: after a `sort` whose comparator raises on its first call, `arr[0] = 5` is not saved as written. Corrected, it is saved once. |
| Tracking.StaleMemoAfterTruncate | SessionValues.js:127-166 | Concrete case: reading `arr[0]` (an object) and then writing `arr.length = 0` leaves the element gone. As written, `arr[0]` still answers the old element's proxy. Corrected, it answers `undefined`. |
| Tracking.ReadAfterSet | SessionValues.js:142-166 | After a write of a primitive through one proxy, reading the property returns the written value itself and creates no new proxy. |
| Tracking.ReadAfterDelete | SessionValues.js:127-176 | After a delete through one proxy, reading the property answers `undefined`, never a stale proxy. |
| Tracking.Invoke | SessionValues.js:189-194 | A bound collection method raises exactly when the collection lacks it (a Set has no `set`/`get`; a Map has no `add`). Non-mutating methods leave the collection as it was. Set `add` adds exactly its argument. |
| Tracking.RemoveMember | SessionValues.js:189-194 | `Set.prototype.delete` keeps a Set free of duplicates and removes exactly the given member. |
| Tracking.RemoveKey | SessionValues.js:189-194 | `Map.prototype.delete` keeps keys unique and removes exactly the given key. |
| Tracking.CallMethod | SessionValues.js:183-206 | Through a Set/Map proxy, a method reaches the collection. A mutating method then saves the owner once, and a non-mutating one saves nothing. The result says how the call ended, not what the method returned. |
| Tracking.CallMethodAsWritten | SessionValues.js:199-203 | As written, a mutating method changes the collection and then raises a ReferenceError on `key`. It never saves. |
| Tracking.CallThroughDeep | SessionValues.js:145-149 | A Set/Map method called through a deep proxy raises a TypeError, leaves the collection unchanged and saves nothing. |
| Tracking.SetMethodsFailAsWritten | SessionValues.js:104-118 | As written, the Set a registry hands out cannot be added to: the call raises and nothing is stored. |
| Tracking.SetAddSavesOnce | SessionValues.js:183-206 | With the evident dispatch, `add` on a wrapped Set adds the member and saves the owner exactly once. |
| Tracking.CollectionSaveFailsAsWritten | SessionValues.js:199-203 | Concrete case: as written, `add` on a Set/Map proxy mutates the Set, raises a ReferenceError and saves nothing. The corrected call saves once. |
| Registry.Place | SessionValues.js:84-86 | What a key holds reads as the value assigned, and satisfies the slot invariant for the registry's auto-save mode. |
| Registry.PlaceAsWritten | SessionValues.js:91-93 | As written, what a key holds reads as the value assigned. With auto-save on, it is a deep proxy over a Set or Map exactly when the value is a Set or Map. With auto-save off, it is the bare value. |
| Registry.StoreGet | SessionValues.js:246 | A store read returns exactly the requested keys that the store holds, with their stored values. |
| Registry.Persist | SessionValues.js:94-96 | A property write is one store call. It sets the key to its JSON form, or leaves the store alone when the value serializes to nothing. |
| Registry.Empty | SessionValues.js:40-45 | A new registry satisfies the invariant and has nobody waiting. |
| Registry.DefineItem | SessionValues.js:70-102 | Declaring a new key sets its value and codecs and makes it pending, and touches no other key, the store or the waiters. Redeclaring a key overwrites its value and deserializer, raises a TypeError and leaves the pending set alone. |
| Registry.Write | SessionValues.js:90-97 | Assigning to an undeclared name changes nothing. A declared key takes the value first. A value that encodes is then stored, in its encoded JSON form, by one store call. A value that fails to encode is kept in memory and nothing is written. |
| Registry.SaveWith | SessionValues.js:224-228 | `save` writes each declared key once, in its current encoded form. It leaves every value and every other stored key alone, and completes when every key encodes. |
| Registry.Save | SessionValues.js:224-228 | With the proxy kept, `save` changes the store and its write log and no value, and preserves the invariant. |
| Registry.Serialized | SessionValues.js:208-218 | The serializer raises a TypeError on a deep proxy over a Set or Map when it is a default Set or Map serializer. On any other held value, and with no serializer or a custom one, it serializes the current value. |
| Registry.SaveAsWritten | SessionValues.js:224-228 | As written, a `save` that completes makes one store call per declared key it names. It raises when it names a Set or Map key held by a deep proxy with a default serializer. |
| Registry.Intercept | SessionValues.js:126-178 | An intercepted operation keeps the proxy's owner, its kind and the kind of its target. The corrected version leaves an idle proxy idle and keeps its memo tables coherent. |
| Registry.MutateWith | SessionValues.js:159-178 | After an intercepted mutation, the key reads as the mutated target. |
| Registry.InterceptSavesAtMostOnce | SessionValues.js:132-178 | In a valid registry, a mutation saves its key at most once. It saves exactly once for an array mutator, for a completed write or delete, and for a mutating Set/Map method. |
| Registry.Mutate | SessionValues.js:159-178 | A tracked mutation keeps the invariant and changes only the mutated key. It makes one store call carrying the new value when the proxy saves, and none otherwise. Its result is the trap's result unless encoding fails. |
| Registry.SaveOne | SessionValues.js:224-228 | Saving one declared key is one store write of its encoded value. |
| Registry.MutateAsWritten | SessionValues.js:159-178 | As written too, the key reads as the mutated target afterwards. |
| Registry.SaveCollectionFailsAsWritten | SessionValues.js:208-226 | As written, once a Set or Map is assigned with auto-save on, `save` of its key raises a TypeError, makes no store call and keeps the value. With the intended placement, the same `save` makes one store call. |
| Registry.SetAddFailsInRegistryAsWritten | SessionValues.js:104-156 | As written, `add` on the Set a key holds with auto-save on raises a TypeError through the registry too. The Set is unchanged and nothing is written. |
| Registry.RepeatedSavesAsWritten | SessionValues.js:224-228 | As written, saving a key `n` times makes `n` store calls and adds `n` proxy layers. |
| Registry.WritesDoubleAsWritten | SessionValues.js:159-170 | As written, a property write through a proxy of `L` layers makes `L` store calls and leaves `2L` layers. |
| Registry.WritesStayOne | SessionValues.js:159-170 | Corrected, every property write makes exactly one store call and keeps a single proxy layer. |
| Registry.TryResolve | SessionValues.js:230-238 | Resolvers are called only when nothing is pending, and then all of them at once with the loaded keys, after which nobody waits. Otherwise nothing changes. |
| Registry.AwaitLoaded | SessionValues.js:58-68 | With keys pending, `$loaded` adds a new resolver that is not already waiting. With none pending, it adds nobody. |
| Registry.LoadWith | SessionValues.js:240-259 | `$load` of a declared key removes it from the pending set. It answers whether the store holds the key, and only then replaces the value, with the decoded stored value. |
| Registry.Load | SessionValues.js:240-259 | Corrected `$load` does the same, and also never leaves a resolver waiting once nothing is pending. |
| Registry.LoadAsWritten | SessionValues.js:240-259 | As written, a store miss returns without calling the waiting resolvers. |
| Registry.InstallAll | SessionValues.js:266-275 | The load loop sets exactly the keys with a defined stored value, each to its decoded value, and leaves other keys alone. |
| Registry.InstallOne | SessionValues.js:266-275 | For a single fetched key with a defined value that decodes, the loop sets that key alone, to the decoded value (to the stored value when raw and auto-save is off), and reports it loaded. |
| Registry.LoadAllWith | SessionValues.js:261-278 | `$loadAll` empties the pending set and returns the pending keys with defined stored values. It then calls every waiting resolver with those keys. |
| Registry.LoadAll | SessionValues.js:261-278 | Corrected `$loadAll`: exactly the returned keys change, each to its decoded stored value, and the invariant holds afterwards. |
| Registry.LoadAllAsWritten | SessionValues.js:271-273 | As written, `$loadAll` also empties the pending set and returns the loaded keys. |
| Registry.WaiterFiresOnLoadAll | SessionValues.js:58-68 | A resolver that starts waiting while keys are pending is called by the next completed `$loadAll`, with exactly the keys it loaded. |
| Registry.DefineAll | SessionValues.js:47-53 | Declaring every definition adds exactly their keys, all pending. |
| Registry.Create | SessionValues.js:40-56 | Auto-save is on unless the option is exactly `false`. After construction nothing is pending and the invariant holds. The declared keys are the defined keys. The loaded keys are exactly the declared keys with a defined stored value. |
| Registry.SetSurvivesStore | SessionValues.js:90-97 | A Set assigned to a key with the default codecs comes back unchanged from `$load`. |
| Registry.MapSurvivesStore | SessionValues.js:90-97 | A Map assigned to a key with the default codecs comes back unchanged from `$load`. |
| Registry.RawLoadKeepsArray | SessionValues.js:271-273 | With auto-save off and a Set key whose stored array is pending, `$loadAll` as written leaves the array where the Set belongs; the corrected version gives the Set. |
| Registry.StrandedWaiterAsWritten | SessionValues.js:247-249 | Concrete case: as written, a `$load` miss leaves nothing pending and the waiting resolver uncalled. The corrected version calls it. |
| Registry.CountScenario | SessionValues.js:40-56 | Declaring `count` over a store holding 5 loads `count`, and the property reads 5. |
| Registry.TagsCreated | SessionValues.js:70-86 | A Set declared without codecs sits behind a Set/Map proxy and is saved through the default Set serializer. |
| Registry.SetAddStoresMembers | SessionValues.js:199-203 | `add` on a wrapped Set with the default serializer makes one store call, which stores the member array with the new member. |

## Left out

- Asynchrony: each `await` is atomic, so nothing interleaves with a load in
  flight.
- Registry.AwaitLoaded: the promise chain through `$$loaded` (lines 58-68)
  is not modelled. The call returns a resolver number or "settled". In the
  source a `$loaded` with keys pending also waits for the earlier
  `$$loaded` promise, and with none pending it returns that promise. If the
  earlier promise never settles, neither does the new one. "Settled" only
  means that no resolver was added.
- Storage failures: `browser.storage.session` calls are assumed to succeed,
  and writes are not awaited by the source.
- Cyclic values (for which `JSON.stringify` raises) and serializers or
  deserializers that raise: custom codecs are total functions.
- Prototype members and named array properties other than `length`: they
  read as `undefined` and writes to them are ignored. Numeric names from
  2^32 - 1 on are named properties too. Holes read as `undefined`.
- Property names are `Index(i)` or `Named(s)`. A `Named` whose text is a
  canonical array index, such as `Named("0")`, is a different property from
  `Index(0)` in the model. JavaScript treats them as one, so numeric names
  are always written as `Index`.
- Numbers are unbounded integers. NaN, the infinities, `-0` and fractions
  are not modelled, so a fractional `length` (a RangeError in JavaScript)
  cannot be written.
- The exact steps of each built-in array mutator: a mutator is a caller-given
  sequence of element writes, deletes and an optional throw.
- Tracking.BulkAsWritten: a mutator whose callback calls another mutator
  on the same proxy is not modelled, for example
  `list.sort((a, b) => { list.push(0); return a - b; })`. The inner call
  lowers the shared flag and saves, so each later element write of the
  outer call saves too. Saving once per layer holds only for callbacks that
  call no mutator on the same proxy.
- Tracking.Bulk: the same re-entrant call is not modelled. A single flag,
  even lowered in `finally`, is lowered by the inner call, so only a
  counter of running mutators would keep the outer call to one save per
  layer.
- Registry.MutateAsWritten: a Collection slot never arises as written. The
  Set/Map branch of lines 109-111 is unreachable, and it would raise on
  `relatedKey` if it were reached. On such a slot the member runs the
  Set/Map proxy of lines 183-206 as written. A Set or Map that the code as
  written wraps in a deep proxy is handled by `Tracking.CallThroughDeep`, as
  `Registry.SetAddFailsInRegistryAsWritten` shows.
- Registry.SaveAsWritten: the model places values with the intended
  dispatch (`Registry.Place`). A deep proxy over a Set or Map arises only
  through `Registry.PlaceAsWritten`. `save` on such a key raises, as
  `Registry.Serialized` states. The `get`-trap memo entries that the failed
  serializer call leaves behind are not modelled.
- Set and Map compare members by structural equality, not JavaScript
  reference identity.
- Nested proxies handed out by the `get` trap are identified by number. Their
  own save accounting at registry level is not modelled; `Registry.Mutate`
  covers operations on the top-level proxy.
- Keys that collide with the registry's own members (`save`, `$values`, ...)
  are not modelled. Neither are names inherited from `Object.prototype`
  (`toString`, `constructor`, ...). The `in` tests of lines 127, 241 and 248
  find those names too.
- Tracking.SetOn: a string or object assigned to an array's `length` counts
  as invalid. JavaScript converts it with `ToNumber` first, so `"3"` gives 3.
- Tracking.SetMember: an object, array, Set or Map written through a proxy
  is stored wrapped in a new proxy (lines 160-164). The model stores the
  value itself, so `Tracking.ReadAfterSet` covers primitive values only.
- Registry.StoreGet: the store is assumed to leave absent keys out of its
  answer. If the host echoes back the `undefined` defaults built at lines
  244-246, the miss at lines 247-249 never happens, and `$load` decodes
  `undefined` instead.
- Tracking.CallMethod: the value a Set or Map method returns is dropped;
  the result only says whether the call returned or raised. Line 194 binds
  each method to the raw collection, so `add` and `set` return the
  unwrapped Set or Map: in `reg.tags.add("a").add("b")` the second `add`
  bypasses the proxy and is never saved. Likewise `get` and iteration hand
  out raw members, so changing an object held inside a Set or Map is never
  saved. Neither escape is modelled.
- Registry.Save: serialization reads through the proxy's `get` trap. In the
  source that fills memo entries with nested proxies; the model's `save`
  leaves the memo tables as they were.
- Registry.Create: `definitions` is `None` for `null`, `false`, `0` or
  `""`, and `Some(...)` otherwise. An omitted argument takes the default
  `{}` of line 40, which is `Some([])`. Object keys are distinct, which the `requires`
  states. The loading order is the definitions' order.
- Registry.LoadAll: the visiting order is a parameter. The store's own
  enumeration order is not modelled.
- Registry.LoadAllAsWritten: states only the pending set and the loaded
  keys. The undecoded value it keeps is shown by `Registry.RawLoadKeepsArray`.

## Findings

| source | as written | input that shows it | evidently intended | confidence | as-written member | corrected member |
|---|---|---|---|---|---|---|
| SessionValues.js:104-118 | `$isObject` is tested first and is true for Sets and Maps, so they get a deep proxy and the Set/Map branch is dead. The undefined names `relatedKey` (line 111) and `key` (line 201) are therefore latent. | A registry with auto-save on and a Set value `tags`: `tags.add("x")` raises a TypeError. So does `save("tags")`: `$serializeSet` spreads the deep proxy and makes no store call (`Registry.SaveCollectionFailsAsWritten`). | Sets and Maps get the Set/Map proxy, whose mutating methods save the key. | high, not executed | Tracking.SetMethodsFailAsWritten | Tracking.SetAddSavesOnce |
| SessionValues.js:199-203 | `this.save(key)` names a variable that is not in scope. | Any mutating call through a Set/Map proxy, e.g. `add("x")`, mutates and then raises a ReferenceError. | `this.save(relatedKey)`. | high, not executed | Tracking.CollectionSaveFailsAsWritten | Tracking.CallMethod |
| SessionValues.js:224-228 | `save` assigns the proxy to the property again, and the setter wraps it once more. | Two writes `reg.o.a = 1; reg.o.b = 2` to a key `o` holding an object, each reading `reg.o` again: 1, then 2 store calls (4 layers). | One store call per write, keeping one proxy. | medium, not executed | Registry.WritesDoubleAsWritten | Registry.WritesStayOne |
| SessionValues.js:271-273 | With auto-save off, the raw stored value is kept, not the decoded one. | Auto-save off, `tags` declared as a Set, store holds `["x"]`: `tags` becomes an array. | Keep the decoded value, as `$load` does. | high, not executed | Registry.RawLoadKeepsArray | Registry.LoadAll |
| SessionValues.js:247-249 | A store miss returns before `$tryResolve`. | `count` pending, a resolver waiting, store lacks `count`: `$load("count")` leaves nothing pending and the resolver uncalled until some later load completes. | Call `$tryResolve` on the miss too. | high, not executed | Registry.StrandedWaiterAsWritten | Registry.Load |
| SessionValues.js:134-137 | No `try`/`finally` around the mutator call. | `arr.sort(cmp)` with a comparator that raises: `arrayChanging` stays true, and writes through that proxy are not saved until a later mutator call completes. | Lower the flag and save in `finally`. | high, not executed | Tracking.StuckFlagExample | Tracking.Bulk |
| SessionValues.js:127-166 | The `set` trap clears only the written property's memo entry. A `length` write that shrinks an array leaves the entries of the removed indices behind. | `reg.list` holds `[{}]` and `const list = reg.list`: read `list[0]`, then `list.length = 0`, then `list[0]` answers the old element's proxy instead of `undefined`. | Drop the memo entries of the indices a `length` write removes. | medium, not executed | Tracking.StaleMemoAfterTruncate | Tracking.SetMember |

=== FILE: codecs.dfy ===
/**
 The default Set and Map codecs of SessionValues.js and the encoder and
 decoder hooks a registry entry carries. A Set is stored as the array of its
 members, a Map as the array of its `[key, value]` entries.
 */
module Codecs {
  import opened JsValues

  /** The elements `for…of` (or spread) produces from a value; a value that is
      not iterable raises a TypeError. A Map produces its entries as
      two-element arrays. */
  function Iterate(v: Value): (r: Outcome<seq<Value>>)
    ensures r.Threw? <==> !(v.Arr? || v.Str? || v.SetV? || v.MapV?)
    ensures v.Arr? ==> r == Returned(v.elems)
    ensures v.SetV? ==> r == Returned(v.members)
    ensures v.Str? ==> r.Returned? && |r.value| == |v.s| && forall i :: 0 <= i < |v.s| ==> r.value[i] == Str([v.s[i]])
    ensures v.MapV? ==>
      && r.Returned? && |r.value| == |v.entries|
      && forall i :: 0 <= i < |v.entries| ==> r.value[i] == Arr([v.entries[i].key, v.entries[i].val])
  {
    match v
    case Arr(es) => Returned(es)
    case Str(s) => Returned(seq(|s|, i requires 0 <= i < |s| => Str([s[i]])))
    case SetV(ms) => Returned(ms)
    case MapV(es) => Returned(seq(|es|, i requires 0 <= i < |es| => Arr([es[i].key, es[i].val])))
    case _ => Threw(TypeError)
  }

  /** `Set.prototype.add`: appends a member that is not yet present. */
  function AddMember(ms: seq<Value>, x: Value): (r: seq<Value>)
    ensures Distinct(ms) ==> Distinct(r)
    ensures forall y :: y in r <==> y in ms || y == x
    ensures x in ms ==> r == ms
    ensures x !in ms ==> r == ms + [x]
  {
    if x in ms then ms else ms + [x]
  }

  /** The position of the first occurrence of `y` in `xs`. */
  function FirstIndex(xs: seq<Value>, y: Value): (i: nat)
    requires y in xs
    ensures i < |xs| && xs[i] == y && y !in xs[..i]
    decreases |xs|
  {
    var init := xs[..|xs| - 1];
    if y in init then
      var i := FirstIndex(init, y);
      assert xs[..i] == init[..i];
      i
    else |xs| - 1
  }

  /** `new Set(xs)`: adds the elements one after another, so the result keeps
      each element's first occurrence, in order. */
  function SetFrom(xs: seq<Value>): (r: seq<Value>)
    ensures Distinct(r)
    ensures forall y :: y in r <==> y in xs
    ensures forall i, j :: 0 <= i < j < |r| ==> FirstIndex(xs, r[i]) < FirstIndex(xs, r[j])
    decreases |xs|
  {
    if |xs| == 0 then []
    else
      var init := xs[..|xs| - 1];
      var ms := SetFrom(init);
      assert forall y :: y in init ==> FirstIndex(xs, y) == FirstIndex(init, y);
      AddMember(ms, xs[|xs| - 1])
  }

  /** Building a Set from elements that are already distinct changes nothing. */
  lemma {:induction false} SetFromDistinct(xs: seq<Value>)
    requires Distinct(xs)
    ensures SetFrom(xs) == xs
  {
    if |xs| > 0 {
      var init := xs[..|xs| - 1];
      assert Distinct(init);
      SetFromDistinct(init);
      assert xs[|xs| - 1] !in init;
      assert init + [xs[|xs| - 1]] == xs;
    }
  }

  /** The position of a key among a Map's entries. */
  function IndexOfKey(es: seq<Pair>, k: Value): (i: nat)
    requires k in KeysOf(es)
    ensures i < |es| && es[i].key == k
    ensures forall j :: 0 <= j < i ==> es[j].key != k
  {
    if es[0].key == k then 0
    else
      assert KeysOf(es) == [es[0].key] + KeysOf(es[1..]);
      1 + IndexOfKey(es[1..], k)
  }

  /** `Map.prototype.set`: replaces the value of an existing key in place, or
      appends a new entry at the end. */
  function MapPut(es: seq<Pair>, k: Value, v: Value): (r: seq<Pair>)
    ensures Distinct(KeysOf(es)) ==> Distinct(KeysOf(r))
    ensures forall y :: y in KeysOf(r) <==> y in KeysOf(es) || y == k
    ensures k !in KeysOf(es) ==> r == es + [Pair(k, v)]
  {
    if k in KeysOf(es) then
      var r := es[IndexOfKey(es, k) := Pair(k, v)];
      assert KeysOf(r) == KeysOf(es);
      r
    else
      var r := es + [Pair(k, v)];
      assert KeysOf(r) == KeysOf(es) + [k];
      r
  }

  /** `Map.prototype.get` on the entry sequence. */
  function MapGet(es: seq<Pair>, k: Value): (r: Option<Value>)
    ensures r.Some? <==> k in KeysOf(es)
    ensures r.Some? ==> Pair(k, r.value) in es
  {
    if k in KeysOf(es) then Some(es[IndexOfKey(es, k)].val) else None
  }

  /** In a Map without duplicate keys, the entry holding a key is the one
      `IndexOfKey` finds. */
  lemma IndexOfKeyUnique(es: seq<Pair>, j: nat)
    requires Distinct(KeysOf(es)) && j < |es|
    ensures IndexOfKey(es, es[j].key) == j
  {
    var i := IndexOfKey(es, es[j].key);
    assert KeysOf(es)[i] == KeysOf(es)[j];
  }

  /** After `set(k, v)` the Map yields `v` for `k` and what it yielded before
      for every other key. */
  lemma MapPutGet(es: seq<Pair>, k: Value, v: Value, y: Value)
    requires Distinct(KeysOf(es))
    ensures MapGet(MapPut(es, k, v), k) == Some(v)
    ensures y != k ==> MapGet(MapPut(es, k, v), y) == MapGet(es, y)
  {
    var r := MapPut(es, k, v);
    var i := IndexOfKey(r, k);
    IndexOfKeyUnique(r, i);
    if y != k && y in KeysOf(es) {
      var j := IndexOfKey(es, y);
      assert r[j] == es[j];
      IndexOfKeyUnique(r, j);
    }
  }

  /** `new Map(entries)`: puts the entries one after another, so a repeated key
      keeps its first position and its last value. */
  function MapFrom(ps: seq<Pair>): (r: seq<Pair>)
    ensures Distinct(KeysOf(r))
    ensures forall y :: y in KeysOf(r) <==> y in KeysOf(ps)
    decreases |ps|
  {
    if |ps| == 0 then []
    else
      var init := ps[..|ps| - 1];
      assert KeysOf(ps) == KeysOf(init) + [ps[|ps| - 1].key];
      MapPut(MapFrom(init), ps[|ps| - 1].key, ps[|ps| - 1].val)
  }

  /** The value of the last entry of `ps` with key `k`. */
  function LastValue(ps: seq<Pair>, k: Value): Value
    requires k in KeysOf(ps)
    decreases |ps|
  {
    var init := ps[..|ps| - 1];
    if ps[|ps| - 1].key == k then ps[|ps| - 1].val
    else
      assert KeysOf(ps) == KeysOf(init) + [ps[|ps| - 1].key];
      LastValue(init, k)
  }

  /** In `new Map(entries)` every key maps to the value of its last entry. */
  lemma {:induction false} MapFromLastValue(ps: seq<Pair>)
    ensures forall k :: k in KeysOf(ps) ==> MapGet(MapFrom(ps), k) == Some(LastValue(ps, k))
    decreases |ps|
  {
    if |ps| > 0 {
      var init := ps[..|ps| - 1];
      var last := ps[|ps| - 1];
      assert KeysOf(ps) == KeysOf(init) + [last.key];
      MapFromLastValue(init);
      forall k | k in KeysOf(ps) ensures MapGet(MapFrom(ps), k) == Some(LastValue(ps, k)) {
        MapPutGet(MapFrom(init), last.key, last.val, k);
      }
    }
  }

  /** Building a Map from entries whose keys are already distinct changes nothing. */
  lemma {:induction false} MapFromDistinct(ps: seq<Pair>)
    requires Distinct(KeysOf(ps))
    ensures MapFrom(ps) == ps
  {
    if |ps| > 0 {
      var init := ps[..|ps| - 1];
      var last := ps[|ps| - 1];
      LastKeyIsNew(ps);
      MapFromDistinct(init);
      calc {
        MapFrom(ps);
        MapPut(MapFrom(init), last.key, last.val);
        MapPut(init, last.key, last.val);
        init + [Pair(last.key, last.val)];
        { SplitLast(ps); }
        ps;
      }
    }
  }

  lemma SplitLast<T>(s: seq<T>)
    requires |s| > 0
    ensures s[..|s| - 1] + [s[|s| - 1]] == s
  {
  }

  /** In entries with distinct keys, the last key does not occur before it,
      and the earlier entries have distinct keys too. */
  lemma LastKeyIsNew(ps: seq<Pair>)
    requires |ps| > 0 && Distinct(KeysOf(ps))
    ensures Distinct(KeysOf(ps[..|ps| - 1]))
    ensures ps[|ps| - 1].key !in KeysOf(ps[..|ps| - 1])
  {
    var init := ps[..|ps| - 1];
    forall j | 0 <= j < |init| ensures KeysOf(init)[j] != ps[|ps| - 1].key {
      assert KeysOf(init)[j] == KeysOf(ps)[j];
      assert ps[|ps| - 1].key == KeysOf(ps)[|ps| - 1];
    }
  }

  /** The entry the Map constructor reads from one iterated item: its
      properties `0` and `1`. A primitive item raises a TypeError. */
  function EntryOf(item: Value): (r: Outcome<Pair>)
    ensures r.Threw? <==> !IsObject(item)
    ensures item.Arr? && |item.elems| >= 2 ==> r == Returned(Pair(item.elems[0], item.elems[1]))
  {
    match item
    case Arr(es) =>
      Returned(Pair(if |es| > 0 then es[0] else Undefined, if |es| > 1 then es[1] else Undefined))
    case Obj(fs) =>
      Returned(Pair(if Index(0) in fs then fs[Index(0)] else Undefined,
                    if Index(1) in fs then fs[Index(1)] else Undefined))
    case SetV(_) => Returned(Pair(Undefined, Undefined))
    case MapV(_) => Returned(Pair(Undefined, Undefined))
    case _ => Threw(TypeError)
  }

  /** The entries of a sequence of items; the first bad item raises. */
  function EntriesOf(items: seq<Value>): (r: Outcome<seq<Pair>>)
    ensures r.Returned? ==> |r.value| == |items|
    ensures r.Returned? <==> forall i :: 0 <= i < |items| ==> IsObject(items[i])
    ensures r.Returned? ==> forall i :: 0 <= i < |items| ==> EntryOf(items[i]) == Returned(r.value[i])
  {
    if |items| == 0 then Returned([])
    else
      match EntryOf(items[0])
      case Threw(e) => Threw(e)
      case Returned(p) =>
        match EntriesOf(items[1..])
        case Threw(e) => Threw(e)
        case Returned(ps) => Returned([p] + ps)
  }

  /** `$serializeSet`: `[...value]`. */
  function SerializeSet(v: Value): (r: Outcome<Value>)
    ensures r.Returned? <==> Iterate(v).Returned?
    ensures r.Returned? ==> r.value == Arr(Iterate(v).value)
  {
    match Iterate(v)
    case Returned(xs) => Returned(Arr(xs))
    case Threw(e) => Threw(e)
  }

  /** `$deserializeSet`: `new Set(value)`. `undefined` and `null` give an empty
      Set; any other non-iterable value raises a TypeError. */
  function DeserializeSet(v: Value): (r: Outcome<Value>)
    ensures r.Returned? ==> r.value.SetV? && WellFormed(r.value)
    ensures v.Arr? ==> r.Returned? && forall y :: y in r.value.members <==> y in v.elems
    ensures r.Threw? <==> !(v.Undefined? || v.Null? || Iterate(v).Returned?)
    ensures v.Undefined? || v.Null? ==> r == Returned(SetV([]))
  {
    if v.Undefined? || v.Null? then Returned(SetV([]))
    else
      match Iterate(v)
      case Returned(xs) => Returned(SetV(SetFrom(xs)))
      case Threw(e) => Threw(e)
  }

  /** `$serializeMap`: `[...value.entries()]`. Arrays, Sets and Maps have an
      `entries` method (index/element, member/member and key/value pairs); any
      other value lacks it and the call raises a TypeError. */
  function SerializeMap(v: Value): (r: Outcome<Value>)
    ensures r.Returned? <==> v.Arr? || v.SetV? || v.MapV?
    ensures v.MapV? ==> r == Returned(Arr(Iterate(v).value))
    ensures v.MapV? ==>
      && |r.value.elems| == |v.entries|
      && forall i :: 0 <= i < |v.entries| ==> r.value.elems[i] == Arr([v.entries[i].key, v.entries[i].val])
    ensures v.Arr? ==>
      && r.Returned? && r.value.Arr? && |r.value.elems| == |v.elems|
      && forall i :: 0 <= i < |v.elems| ==> r.value.elems[i] == Arr([Num(i), v.elems[i]])
    ensures v.SetV? ==>
      && r.Returned? && r.value.Arr? && |r.value.elems| == |v.members|
      && forall i :: 0 <= i < |v.members| ==> r.value.elems[i] == Arr([v.members[i], v.members[i]])
  {
    match v
    case Arr(es) => Returned(Arr(seq(|es|, i requires 0 <= i < |es| => Arr([Num(i), es[i]]))))
    case SetV(ms) => Returned(Arr(seq(|ms|, i requires 0 <= i < |ms| => Arr([ms[i], ms[i]]))))
    case MapV(es) => Returned(Arr(seq(|es|, i requires 0 <= i < |es| => Arr([es[i].key, es[i].val]))))
    case _ => Threw(TypeError)
  }

  /** `$deserializeMap`: `new Map(value)`. `undefined` and `null` give an empty
      Map; a non-iterable value or a primitive item raises a TypeError. */
  function DeserializeMap(v: Value): (r: Outcome<Value>)
    ensures r.Returned? ==> r.value.MapV? && WellFormed(r.value)
    ensures v.Undefined? || v.Null? ==> r == Returned(MapV([]))
    ensures v.Arr? ==> (r.Returned? <==> forall i :: 0 <= i < |v.elems| ==> IsObject(v.elems[i]))
    ensures v.Arr? && r.Returned? ==>
      forall y :: y in KeysOf(r.value.entries) <==> y in KeysOf(EntriesOf(v.elems).value)
    ensures v.Arr? && r.Returned? ==>
      forall y :: y in KeysOf(EntriesOf(v.elems).value) ==>
        MapGet(r.value.entries, y) == Some(LastValue(EntriesOf(v.elems).value, y))
  {
    if v.Undefined? || v.Null? then Returned(MapV([]))
    else
      match Iterate(v)
      case Threw(e) => Threw(e)
      case Returned(items) =>
        match EntriesOf(items)
        case Threw(e) => Threw(e)
        case Returned(ps) =>
          MapFromLastValue(ps);
          Returned(MapV(MapFrom(ps)))
  }

  /** Serializing a Set and deserializing the result gives back the same Set,
      members in the same order. */
  lemma SetRoundTrip(s: Value)
    requires s.SetV? && WellFormed(s)
    ensures DeserializeSet(SerializeSet(s).value) == Returned(s)
  {
    SetFromDistinct(s.members);
  }

  /** Serializing a Map and deserializing the result gives back the same Map,
      entries in the same order. */
  lemma MapRoundTrip(m: Value)
    requires m.MapV? && WellFormed(m)
    ensures DeserializeMap(SerializeMap(m).value) == Returned(m)
  {
    var es := m.entries;
    var items := Iterate(m).value;
    assert SerializeMap(m) == Returned(Arr(items));
    assert Iterate(Arr(items)) == Returned(items);
    var ps := EntriesOf(items);
    assert ps.Returned? by {
      forall i | 0 <= i < |items| ensures IsObject(items[i]) { }
    }
    assert ps.value == es by {
      forall i | 0 <= i < |es| ensures ps.value[i] == es[i] {
        assert EntryOf(items[i]) == Returned(ps.value[i]);
      }
    }
    MapFromDistinct(es);
  }

  /** The value a Map holds for a key after the round trip is the value it
      held before: the key-to-value mapping is preserved. */
  lemma MapRoundTripLookups(m: Value, k: Value)
    requires m.MapV? && WellFormed(m)
    ensures DeserializeMap(SerializeMap(m).value).Returned?
    ensures MapGet(DeserializeMap(SerializeMap(m).value).value.entries, k) == MapGet(m.entries, k)
  {
    MapRoundTrip(m);
  }

  /** A registry entry's serializer: none (the value is stored as is), one of
      the two defaults, or a function the caller supplied. */
  datatype Encoder = NoEncoder | SetToArray | MapToEntries | CustomEncoder(encode: Value -> Value)

  /** A registry entry's deserializer, with the same four possibilities. */
  datatype Decoder = NoDecoder | ArrayToSet | EntriesToMap | CustomDecoder(decode: Value -> Value)

  /** `serializer ? serializer(value) : value`. */
  function Encode(e: Encoder, v: Value): (r: Outcome<Value>)
    ensures e.NoEncoder? ==> r == Returned(v)
    ensures r.Threw? ==>
      (e.SetToArray? && !(v.Arr? || v.Str? || v.SetV? || v.MapV?)) || (e.MapToEntries? && !(v.Arr? || v.SetV? || v.MapV?))
    ensures e.SetToArray? && v.SetV? ==> r == Returned(Arr(v.members))
    ensures e.MapToEntries? && v.MapV? ==>
      && r.Returned? && r.value.Arr? && |r.value.elems| == |v.entries|
      && forall i :: 0 <= i < |v.entries| ==> r.value.elems[i] == Arr([v.entries[i].key, v.entries[i].val])
    ensures e.CustomEncoder? ==> r == Returned(e.encode(v))
  {
    match e
    case NoEncoder => Returned(v)
    case SetToArray => SerializeSet(v)
    case MapToEntries => SerializeMap(v)
    case CustomEncoder(f) => Returned(f(v))
  }

  /** `deserializer ? deserializer(value) : value`. */
  function Decode(d: Decoder, v: Value): (r: Outcome<Value>)
    ensures d.NoDecoder? ==> r == Returned(v)
    ensures r.Threw? ==> d.ArrayToSet? || d.EntriesToMap?
    ensures d.ArrayToSet? && r.Returned? ==> r.value.SetV? && WellFormed(r.value)
    ensures d.EntriesToMap? && r.Returned? ==> r.value.MapV? && WellFormed(r.value)
    ensures (d.ArrayToSet? || d.EntriesToMap?) && (v.Undefined? || v.Null?) ==> r.Returned?
    ensures d.CustomDecoder? ==> r == Returned(d.decode(v))
  {
    match d
    case NoDecoder => Returned(v)
    case ArrayToSet => DeserializeSet(v)
    case EntriesToMap => DeserializeMap(v)
    case CustomDecoder(f) => Returned(f(v))
  }

  /** The serializer `$defineItem` keeps: a Set or Map initial value gets the
      matching default only when the caller supplied none. */
  function DefaultEncoder(initial: Value, e: Encoder): (r: Encoder)
    ensures !e.NoEncoder? ==> r == e
    ensures e.NoEncoder? && initial.SetV? ==> r == SetToArray
    ensures e.NoEncoder? && initial.MapV? ==> r == MapToEntries
    ensures !initial.SetV? && !initial.MapV? ==> r == e
  {
    if !e.NoEncoder? then e
    else if initial.SetV? then SetToArray
    else if initial.MapV? then MapToEntries
    else e
  }

  /** The deserializer `$defineItem` keeps, chosen like `DefaultEncoder`. */
  function DefaultDecoder(initial: Value, d: Decoder): (r: Decoder)
    ensures !d.NoDecoder? ==> r == d
    ensures d.NoDecoder? && initial.SetV? ==> r == ArrayToSet
    ensures d.NoDecoder? && initial.MapV? ==> r == EntriesToMap
    ensures !initial.SetV? && !initial.MapV? ==> r == d
  {
    if !d.NoDecoder? then d
    else if initial.SetV? then ArrayToSet
    else if initial.MapV? then EntriesToMap
    else d
  }

  /** With the default codecs, a Set or Map value read back from its encoded
      form is the value that was encoded. */
  lemma DefaultCodecsRoundTrip(v: Value)
    requires (v.SetV? || v.MapV?) && WellFormed(v)
    ensures Encode(DefaultEncoder(v, NoEncoder), v).Returned?
    ensures Decode(DefaultDecoder(v, NoDecoder), Encode(DefaultEncoder(v, NoEncoder), v).value) == Returned(v)
  {
    if v.SetV? {
      assert DefaultEncoder(v, NoEncoder) == SetToArray && DefaultDecoder(v, NoDecoder) == ArrayToSet;
      SetRoundTrip(v);
    } else {
      assert DefaultEncoder(v, NoEncoder) == MapToEntries && DefaultDecoder(v, NoDecoder) == EntriesToMap;
      MapRoundTrip(v);
    }
  }
}

=== FILE: registry.dfy ===
/**
 The `SessionValues` registry as a state machine: declaring keys, the
 property setter, `save`, loading single keys and all pending keys from the
 session store, and the resolvers waiting for loading to finish. Every
 `await` is one atomic store read; each transition is a pure function from
 one `Session` to the next.
 */
module Registry {
  import opened JsValues
  import opened Codecs
  import opened Tracking

  /** One `$tryResolve` that called resolvers: who was called, with which keys. */
  datatype Firing = Firing(resolvers: set<nat>, loaded: set<Key>)

  /** The registry and the store it is bound to.
      - `slots`: `$values`, one slot per declared key;
      - `decoders`: `$deserializers`;
      - `encoders`: the serializer each key's property setter closes over;
      - `pending`: `$toBeLoadedKeys`;
      - `waiters`: `$resolveLoaded`, each resolver named by a number;
      - `store`: the contents of `browser.storage.session`;
      - `writes`: every `browser.storage.session.set` call, in order;
      - `fired`: every `$tryResolve` that called resolvers, in order. */
  datatype Session = Session(
    slots: map<Key, Slot>,
    decoders: map<Key, Decoder>,
    encoders: map<Key, Encoder>,
    pending: set<Key>,
    waiters: set<nat>,
    nextWaiter: nat,
    autoSave: bool,
    store: map<Key, Value>,
    writes: seq<map<Key, Value>>,
    fired: seq<Firing>)

  /** A transition: the session afterwards and how the call ended. */
  datatype Step<+T> = Step(next: Session, out: Outcome<T>)

  /** What a slot may hold: with auto-save on every object is wrapped on
      behalf of its own key, by a single wrapper with no batch running; with
      auto-save off nothing is wrapped. */
  predicate SlotOk(autoSave: bool, k: Key, s: Slot) {
    match s
    case Raw(v) => !(autoSave && IsObject(v))
    case Tracked(t) =>
      && autoSave && t.owner == k && Idle(t) && Coherent(t)
      && (t.Deep? ==> t.target.Obj? || t.target.Arr?)
      && (t.Collection? ==> t.target.SetV? || t.target.MapV?)
  }

  /** The invariant every transition keeps: the three per-key tables cover
      the same keys, only declared keys are pending, resolver numbers are
      below the next one to hand out, and every slot is as `SlotOk` says. */
  predicate Valid(st: Session) {
    && st.slots.Keys == st.decoders.Keys
    && st.slots.Keys == st.encoders.Keys
    && st.pending <= st.slots.Keys
    && (forall w :: w in st.waiters ==> w < st.nextWaiter)
    && (forall k :: k in st.slots ==> SlotOk(st.autoSave, k, st.slots[k]))
  }

  /** Nobody waits once nothing is pending: a resolver is never left behind. */
  predicate NoStrandedWaiter(st: Session) {
    st.pending == {} ==> st.waiters == {}
  }

  function EncoderOf(st: Session, k: Key): Encoder {
    if k in st.encoders then st.encoders[k] else NoEncoder
  }

  function DecoderOf(st: Session, k: Key): Decoder {
    if k in st.decoders then st.decoders[k] else NoDecoder
  }

  /** What `$values[key]` becomes when assigned `v`: wrapped when auto-save
      is on. */
  function Place(st: Session, k: Key, v: Value): (s: Slot)
    ensures Current(s) == v
    ensures SlotOk(st.autoSave, k, s)
  {
    if st.autoSave then Wrap(v, k) else Raw(v)
  }

  /** What `$values[key]` becomes when assigned `v` in the code as written
      (lines 91-93 and 104-118): a Set or Map gets a deep wrapper too. */
  function PlaceAsWritten(st: Session, k: Key, v: Value): (s: Slot)
    ensures Current(s) == v
    ensures st.autoSave ==> (DeepOverCollection(s) <==> v.SetV? || v.MapV?)
    ensures !st.autoSave ==> s == Raw(v)
  {
    if st.autoSave then WrapAsWritten(v, k) else Raw(v)
  }

  /** `browser.storage.session.get(keys)`: the stored entries among `keys`. */
  function StoreGet(store: map<Key, Value>, keys: set<Key>): (r: map<Key, Value>)
    ensures forall k :: k in r <==> k in keys && k in store
    ensures forall k :: k in r ==> r[k] == store[k]
  {
    map k | k in keys && k in store :: store[k]
  }

  /** `browser.storage.session.set(JSON.parse(JSON.stringify({[key]: s})))`:
      one store call; the key is written unless its value serializes to
      nothing, in which case the call carries no entry. */
  function Persist(st: Session, k: Key, s: Value): (r: Session)
    ensures r == st.(store := r.store, writes := r.writes)
    ensures |r.writes| == |st.writes| + 1
    ensures ToJson(s).Some? ==> r.store == st.store[k := ToJson(s).value]
    ensures ToJson(s).None? ==> r.store == st.store
  {
    var entries := match ToJson(s) case Some(j) => map[k := j] case None => map[];
    st.(store := st.store + entries, writes := st.writes + [entries])
  }

  /** The store form saving `k` produces: the JSON form of its encoded current
      value (`None` when it serializes to nothing), or the error encoding
      raises. */
  function SavedForm(st: Session, k: Key): Outcome<Option<Value>>
    requires k in st.slots
  {
    match Serialized(st, k)
    case Returned(s) => Returned(ToJson(s))
    case Threw(e) => Threw(e)
  }

  /** A deep wrapper over a Set or Map: what a Set or Map key holds with
      auto-save on in the code as written. */
  predicate DeepOverCollection(s: Slot) {
    s.Tracked? && s.tracker.Deep? && (s.tracker.target.SetV? || s.tracker.target.MapV?)
  }

  /** What the serializer makes of the value `save` passes to the setter,
      which is the held value itself, wrapper included (lines 90-96 and 226).
      The default Set serializer spreads it (line 209) and the default Map
      serializer calls its `entries` (line 217). Through a deep wrapper the
      `get` trap hands back that Set or Map method unbound (lines 131 and
      155-156). The call then has the wrapper as its receiver and raises a
      TypeError. Every other held value serializes as its current value. */
  function Serialized(st: Session, k: Key): (r: Outcome<Value>)
    requires k in st.slots
    ensures SpreadsWrapper(st, k) ==> r == Threw(TypeError)
    ensures !DeepOverCollection(st.slots[k]) ==> r == Encode(EncoderOf(st, k), Current(st.slots[k]))
    ensures EncoderOf(st, k).NoEncoder? || EncoderOf(st, k).CustomEncoder? ==> r == Encode(EncoderOf(st, k), Current(st.slots[k]))
  {
    if SpreadsWrapper(st, k) then Threw(TypeError)
    else Encode(EncoderOf(st, k), Current(st.slots[k]))
  }

  /** `k` holds a deep wrapper over a Set or Map, and its serializer is a
      default one that calls a Set or Map method on it. */
  predicate SpreadsWrapper(st: Session, k: Key)
    requires k in st.slots
  {
    DeepOverCollection(st.slots[k]) && (EncoderOf(st, k).SetToArray? || EncoderOf(st, k).MapToEntries?)
  }

  /** A registry with no keys, bound to `store`. */
  function Empty(autoSave: bool, store: map<Key, Value>): (st: Session)
    ensures Valid(st) && NoStrandedWaiter(st)
  {
    Session(map[], map[], map[], {}, {}, 0, autoSave, store, [], [])
  }

  /** `$defineItem(key, initial, serializer, deserializer)` (lines 70-102).
      A new key gets its initial value (wrapped when auto-save is on), the
      codecs `DefaultEncoder`/`DefaultDecoder` choose, and becomes pending.
      Redefining a key overwrites its value and deserializer, then fails
      with a TypeError because its property cannot be redefined; it does not
      become pending again. */
  function DefineItem(st: Session, key: Key, initial: Value, enc: Encoder, dec: Decoder): (r: Step<()>)
    ensures key in r.next.slots && Current(r.next.slots[key]) == initial
    ensures r.next.decoders == st.decoders[key := DefaultDecoder(initial, dec)]
    ensures forall k :: k in st.slots && k != key ==> k in r.next.slots && r.next.slots[k] == st.slots[k]
    ensures r.next.store == st.store && r.next.writes == st.writes
    ensures r.next.waiters == st.waiters && r.next.fired == st.fired
    ensures key !in st.slots ==>
      && r.out == Returned(())
      && r.next.pending == st.pending + {key}
      && r.next.encoders == st.encoders[key := DefaultEncoder(initial, enc)]
      && r.next.slots.Keys == st.slots.Keys + {key}
    ensures key in st.slots ==>
      && r.out == Threw(TypeError)
      && r.next.pending == st.pending
      && r.next.encoders == st.encoders
    ensures Valid(st) ==> Valid(r.next)
    ensures NoStrandedWaiter(st) ==> NoStrandedWaiter(r.next)
  {
    var st1 := st.(slots := st.slots[key := Place(st, key, initial)],
                   decoders := st.decoders[key := DefaultDecoder(initial, dec)]);
    if key in st.slots then Step(st1, Threw(TypeError))
    else Step(st1.(encoders := st.encoders[key := DefaultEncoder(initial, enc)],
                   pending := st.pending + {key}), Returned(()))
  }

  /** Assigning `v` to the property of `key` (lines 90-97). An undeclared key
      is a plain property: the registry and the store do not change. A
      declared key takes the new value first, then its encoded JSON form is
      written to the store; if encoding raises, the new value stays in
      memory and nothing is written. */
  function Write(st: Session, key: Key, v: Value): (r: Step<()>)
    ensures key !in st.slots ==> r == Step(st, Returned(()))
    ensures key in st.slots ==>
      && r.next.slots == st.slots[key := Place(st, key, v)]
      && Current(r.next.slots[key]) == v
    ensures r.next == st.(slots := r.next.slots, store := r.next.store, writes := r.next.writes)
    ensures key in st.slots && Encode(EncoderOf(st, key), v).Returned? ==>
      && r.out == Returned(())
      && |r.next.writes| == |st.writes| + 1
      && SavedForm(r.next, key) == Returned(ToJson(Encode(EncoderOf(st, key), v).value))
      && (SavedForm(r.next, key).value.Some? ==> r.next.store == st.store[key := SavedForm(r.next, key).value.value])
    ensures key in st.slots && Encode(EncoderOf(st, key), v).Threw? ==>
      r.out.Threw? && r.next.writes == st.writes && r.next.store == st.store
    ensures Valid(st) ==> Valid(r.next)
  {
    if key !in st.slots then Step(st, Returned(()))
    else
      var st1 := st.(slots := st.slots[key := Place(st, key, v)]);
      match Encode(EncoderOf(st, key), v)
      case Threw(e) => Step(st1, Threw(e))
      case Returned(s) => Step(Persist(st1, key, s), Returned(()))
  }

  /** The number of declared keys in `keys`, counted with repetition. */
  function CountDeclared(declared: set<Key>, keys: seq<Key>): nat {
    if |keys| == 0 then 0
    else (if keys[0] in declared then 1 else 0) + CountDeclared(declared, keys[1..])
  }

  /** The saved form of a key depends only on its encoder, its current
      value and whether it is a deep wrapper over a Set or Map. */
  lemma SavedFormAgrees(a: Session, b: Session)
    requires a.encoders == b.encoders && a.slots.Keys == b.slots.Keys
    requires forall k :: k in a.slots ==> Current(a.slots[k]) == Current(b.slots[k])
    requires forall k :: k in a.slots ==> DeepOverCollection(a.slots[k]) == DeepOverCollection(b.slots[k])
    ensures forall k :: k in a.slots ==> SavedForm(a, k) == SavedForm(b, k)
  {
    forall k | k in a.slots
      ensures SavedForm(a, k) == SavedForm(b, k)
    {
      assert EncoderOf(a, k) == EncoderOf(b, k);
    }
  }

  /** `save(...keys)` (lines 224-228): `this[key] = this[key]` for each key in
      turn. An undeclared key is skipped. With `rewrap` the setter wraps the
      already wrapped current value once more, as the code as written does;
      without it the wrapper is kept. The first key whose encoding raises
      ends the call. */
  function SaveWith(st: Session, keys: seq<Key>, rewrap: bool): (r: Step<()>)
    ensures r.next == st.(slots := r.next.slots, store := r.next.store, writes := r.next.writes)
    ensures !rewrap ==> r.next.slots == st.slots
    ensures r.next.slots.Keys == st.slots.Keys
    ensures forall k :: k in st.slots ==> Current(r.next.slots[k]) == Current(st.slots[k])
    ensures forall k :: k !in keys ==> k in st.slots ==> r.next.slots[k] == st.slots[k]
    ensures forall k :: k !in keys ==> (k in r.next.store <==> k in st.store)
    ensures forall k :: k !in keys && k in st.store ==> r.next.store[k] == st.store[k]
    ensures r.out.Returned? ==> |r.next.writes| == |st.writes| + CountDeclared(st.slots.Keys, keys)
    ensures r.out.Returned? ==> forall k :: k in keys && k in st.slots ==>
      && SavedForm(st, k).Returned?
      && (SavedForm(st, k).value.Some? ==> k in r.next.store && r.next.store[k] == SavedForm(st, k).value.value)
    ensures (forall k :: k in keys && k in st.slots ==> SavedForm(st, k).Returned?) ==> r.out.Returned?
    decreases |keys|
  {
    if |keys| == 0 then Step(st, Returned(()))
    else if keys[0] !in st.slots then SaveWith(st, keys[1..], rewrap)
    else
      var k := keys[0];
      var slot := st.slots[k];
      var st1 := if rewrap then st.(slots := st.slots[k := Rewrap(slot)]) else st;
      SavedFormAgrees(st1, st);
      match Serialized(st, k)
      case Threw(e) => Step(st1, Threw(e))
      case Returned(s) =>
        var st2 := Persist(st1, k, s);
        var rest := SaveWith(st2, keys[1..], rewrap);
        SavedFormAgrees(st2, st);
        rest
  }

  /** `save(...keys)` with the wrapper kept: every declared key among `keys`
      is written once more with its current value, and nothing else in the
      registry changes. */
  function Save(st: Session, keys: seq<Key>): (r: Step<()>)
    ensures r.next == st.(store := r.next.store, writes := r.next.writes)
    ensures r.out.Returned? ==> |r.next.writes| == |st.writes| + CountDeclared(st.slots.Keys, keys)
    ensures r.out.Returned? ==> forall k :: k in keys && k in st.slots ==>
      && SavedForm(st, k).Returned?
      && (SavedForm(st, k).value.Some? ==> k in r.next.store && r.next.store[k] == SavedForm(st, k).value.value)
    ensures forall k :: k !in keys ==> (k in r.next.store <==> k in st.store)
    ensures forall k :: k !in keys && k in st.store ==> r.next.store[k] == st.store[k]
    ensures (forall k :: k in keys && k in st.slots ==> SavedForm(st, k).Returned?) ==> r.out.Returned?
    ensures Valid(st) ==> Valid(r.next)
  {
    SaveWith(st, keys, false)
  }

  /** `save(...keys)` as written: each save of a wrapped key wraps it again,
      and a Set or Map key held by a deep wrapper with its default
      serializer raises (see `Serialized`). */
  function SaveAsWritten(st: Session, keys: seq<Key>): (r: Step<()>)
    ensures r.next.slots.Keys == st.slots.Keys
    ensures r.out.Returned? ==> |r.next.writes| == |st.writes| + CountDeclared(st.slots.Keys, keys)
    ensures forall k :: k in keys && k in st.slots && SpreadsWrapper(st, k) ==> r.out.Threw?
  {
    SaveWith(st, keys, true)
  }

  /** An operation on a wrapped value that a wrapper intercepts. */
  datatype Mutation =
    | MemberSet(p: Prop, v: Value)
    | MemberDelete(p: Prop)
    | BulkCall(ops: seq<Internal>)
    | MethodCall(m: Method)

  /** The wrapper in hand intercepts the operation: property writes and
      deletes and array mutators on a deep wrapper (mutators only over an
      array), and Set or Map method calls on either kind of wrapper. */
  predicate Intercepts(t: Tracker, op: Mutation) {
    match op
    case MemberSet(_, _) => t.Deep?
    case MemberDelete(_) => t.Deep?
    case BulkCall(_) => t.Deep? && t.target.Arr?
    case MethodCall(_) => t.target.SetV? || t.target.MapV?
  }

  function Intercept(t: Tracker, op: Mutation, asWritten: bool): (e: Effect)
    requires Intercepts(t, op)
    ensures e.after.owner == t.owner && e.after.Deep? == t.Deep? && SameKind(e.after.target, t.target)
    ensures !asWritten && Idle(t) ==> Idle(e.after)
    ensures !asWritten && Coherent(t) ==> Coherent(e.after)
  {
    match op
    case MemberSet(p, v) => if asWritten then SetMemberAsWritten(t, p, v) else SetMember(t, p, v)
    case MemberDelete(p) => DeleteMember(t, p)
    case BulkCall(ops) => if asWritten then BulkAsWritten(t, ops) else Bulk(t, ops)
    case MethodCall(m) =>
      if t.Deep? then ReadKeepsInvariants(t, Named(MethodName(m))); CallThroughDeep(t, m)
      else if asWritten then CallMethodAsWritten(t, m) else CallMethod(t, m)
  }

  /** The saves an intercepted operation makes are `save(owner)` calls, so
      they run the write path of the key. */
  function MutateWith(st: Session, key: Key, op: Mutation, asWritten: bool): (r: Step<bool>)
    requires key in st.slots && st.slots[key].Tracked? && Intercepts(st.slots[key].tracker, op)
    ensures key in r.next.slots
    ensures Current(r.next.slots[key]) == Intercept(st.slots[key].tracker, op, asWritten).after.target
  {
    var e := Intercept(st.slots[key].tracker, op, asWritten);
    var st1 := st.(slots := st.slots[key := Tracked(e.after)]);
    var saved := SaveWith(st1, e.saves, asWritten);
    match saved.out
    case Threw(err) => Step(saved.next, Threw(err))
    case Returned(_) => Step(saved.next, e.result)
  }

  /** In a valid registry an intercepted operation saves the wrapped key at
      most once: exactly once for an array mutator, for a completed write
      or delete, and for a mutating Set or Map method. */
  lemma InterceptSavesAtMostOnce(st: Session, key: Key, op: Mutation)
    requires Valid(st) && key in st.slots && st.slots[key].Tracked?
    requires Intercepts(st.slots[key].tracker, op)
    ensures var t := st.slots[key].tracker;
            var e := Intercept(t, op, false);
            && (e.saves == [] || e.saves == [key])
            && (op.BulkCall? ==> e.saves == [key])
            && ((op.MemberSet? || op.MemberDelete?) && e.result.Returned? ==> e.saves == [key])
            && (op.MethodCall? && e.result.Returned? && MethodName(op.m) in ChangeMethods(t.target) ==> e.saves == [key])
  {
  }

  /** A tracked mutation in a valid registry: the mutated value is what the
      key now holds, and it is written to the store in one store call when
      the wrapper saves (none otherwise); nothing else in the registry
      changes. */
  function Mutate(st: Session, key: Key, op: Mutation): (r: Step<bool>)
    requires Valid(st)
    requires key in st.slots && st.slots[key].Tracked? && Intercepts(st.slots[key].tracker, op)
    ensures Valid(r.next)
    ensures r.next.slots.Keys == st.slots.Keys
    ensures Current(r.next.slots[key]) == Intercept(st.slots[key].tracker, op, false).after.target
    ensures forall k :: k in st.slots && k != key ==> r.next.slots[k] == st.slots[k]
    ensures r.next.pending == st.pending && r.next.waiters == st.waiters && r.next.fired == st.fired
    ensures Intercept(st.slots[key].tracker, op, false).saves == [] ==>
      r.next.writes == st.writes && r.next.store == st.store
    ensures Intercept(st.slots[key].tracker, op, false).saves == [key] && SavedForm(r.next, key).Returned? ==>
      && |r.next.writes| == |st.writes| + 1
      && (SavedForm(r.next, key).value.Some? ==> r.next.store == st.store[key := SavedForm(r.next, key).value.value])
    ensures Intercept(st.slots[key].tracker, op, false).saves == [] || SavedForm(r.next, key).Returned? ==>
      r.out == Intercept(st.slots[key].tracker, op, false).result
    ensures Intercept(st.slots[key].tracker, op, false).saves == [key] && SavedForm(r.next, key).Threw? ==>
      r.out.Threw? && r.next.writes == st.writes
  {
    MutateKeepsValid(st, key, op);
    MutateSaves(st, key, op);
    MutateWith(st, key, op, false)
  }

  /** A corrected mutation keeps the invariant and touches no other key and
      none of the loading state. */
  lemma MutateKeepsValid(st: Session, key: Key, op: Mutation)
    requires Valid(st)
    requires key in st.slots && st.slots[key].Tracked? && Intercepts(st.slots[key].tracker, op)
    ensures var r := MutateWith(st, key, op, false);
            && Valid(r.next)
            && r.next.slots == st.slots[key := Tracked(Intercept(st.slots[key].tracker, op, false).after)]
            && r.next.pending == st.pending && r.next.waiters == st.waiters && r.next.fired == st.fired
  {
    InterceptKeepsValid(st, key, op);
  }

  /** A corrected mutation makes the store call its wrapper's save asks for,
      and none otherwise. */
  lemma MutateSaves(st: Session, key: Key, op: Mutation)
    requires Valid(st)
    requires key in st.slots && st.slots[key].Tracked? && Intercepts(st.slots[key].tracker, op)
    ensures var e := Intercept(st.slots[key].tracker, op, false);
            var r := MutateWith(st, key, op, false);
            && (e.saves == [] ==> r.next.writes == st.writes && r.next.store == st.store && r.out == e.result)
            && (e.saves == [key] && SavedForm(r.next, key).Returned? ==>
                  && |r.next.writes| == |st.writes| + 1
                  && (SavedForm(r.next, key).value.Some? ==> r.next.store == st.store[key := SavedForm(r.next, key).value.value])
                  && r.out == e.result)
            && (e.saves == [key] && SavedForm(r.next, key).Threw? ==> r.out.Threw? && r.next.writes == st.writes)
  {
    var e := Intercept(st.slots[key].tracker, op, false);
    var st1 := st.(slots := st.slots[key := Tracked(e.after)]);
    if e.saves == [key] {
      SaveOne(st1, key);
    }
  }

  /** The wrapper a corrected intercepted operation leaves behind still
      satisfies the slot invariant. */
  lemma InterceptKeepsValid(st: Session, key: Key, op: Mutation)
    requires Valid(st) && key in st.slots && st.slots[key].Tracked?
    requires Intercepts(st.slots[key].tracker, op)
    ensures Valid(st.(slots := st.slots[key := Tracked(Intercept(st.slots[key].tracker, op, false).after)]))
  {
    var e := Intercept(st.slots[key].tracker, op, false);
    assert SlotOk(st.autoSave, key, Tracked(e.after));
  }

  /** Saving one declared key is one `Persist` of its encoded value. */
  lemma SaveOne(st: Session, key: Key)
    requires key in st.slots
    ensures var r := SaveWith(st, [key], false);
            SavedForm(st, key).Returned? ==>
              && r.next == Persist(st, key, Serialized(st, key).value)
              && r.out == Returned(())
              && SavedForm(r.next, key) == SavedForm(st, key)
    ensures SavedForm(st, key).Threw? ==> SaveWith(st, [key], false) == Step(st, Threw(SavedForm(st, key).error))
  {
    assert [key][1..] == [];
  }

  /** A tracked mutation as written: batches may leave flags raised, and
      each save wraps the key's value once more. */
  function MutateAsWritten(st: Session, key: Key, op: Mutation): (r: Step<bool>)
    requires key in st.slots && st.slots[key].Tracked? && Intercepts(st.slots[key].tracker, op)
    ensures key in r.next.slots && r.next.slots.Keys == st.slots.Keys
    ensures Current(r.next.slots[key]) == Intercept(st.slots[key].tracker, op, true).after.target
  {
    MutateWith(st, key, op, true)
  }

  /** Saving one key `n` times as written: `n` store calls, and each adds a
      wrapper layer. */
  lemma {:induction false} RepeatedSavesAsWritten(st: Session, key: Key, n: nat)
    requires key in st.slots && st.slots[key].Tracked? && st.slots[key].tracker.Deep?
    requires SavedForm(st, key).Returned?
    ensures var r := SaveWith(st, Repeat(key, n), true);
            && r.out.Returned?
            && |r.next.writes| == |st.writes| + n
            && r.next.slots[key].Tracked? && r.next.slots[key].tracker.Deep?
            && |r.next.slots[key].tracker.layers| == |st.slots[key].tracker.layers| + n
    decreases n
  {
    if n > 0 {
      var t := st.slots[key].tracker;
      var st1 := st.(slots := st.slots[key := Rewrap(st.slots[key])]);
      var s := Serialized(st, key).value;
      var st2 := Persist(st1, key, s);
      assert Repeat(key, n)[1..] == Repeat(key, n - 1);
      assert SavedForm(st2, key) == SavedForm(st, key);
      RepeatedSavesAsWritten(st2, key, n - 1);
    }
  }

  /** As written, a property write through a wrapper of `L` layers makes `L`
      store calls and leaves `2L` layers behind: starting from one layer,
      the store calls per write double with every write. */
  lemma WritesDoubleAsWritten(st: Session, key: Key, p: Prop, v: Value)
    requires key in st.slots && st.slots[key].Tracked?
    requires var t := st.slots[key].tracker;
             t.Deep? && t.owner == key && t.target.Obj? && forall i :: 0 <= i < |t.layers| ==> !t.layers[i].changing
    requires Encode(EncoderOf(st, key), SetOn(st.slots[key].tracker.target, p, v).value).Returned?
    ensures var L := |st.slots[key].tracker.layers|;
            var r := MutateAsWritten(st, key, MemberSet(p, v));
            && |r.next.writes| == |st.writes| + L
            && r.next.slots[key].Tracked? && r.next.slots[key].tracker.Deep?
            && |r.next.slots[key].tracker.layers| == 2 * L
  {
    var t := st.slots[key].tracker;
    var e := SetMemberAsWritten(t, p, v);
    assert e.saves == Repeat(key, |t.layers|) by {
      assert IdleCount(t.layers) == |t.layers|;
    }
    var st1 := st.(slots := st.slots[key := Tracked(e.after)]);
    assert SavedForm(st1, key).Returned?;
    RepeatedSavesAsWritten(st1, key, |t.layers|);
  }

  /** With the wrapper kept, every property write through a wrapped object
      makes exactly one store call carrying the updated value, however many
      writes came before. */
  lemma WritesStayOne(st: Session, key: Key, p: Prop, v: Value)
    requires Valid(st) && key in st.slots && st.slots[key].Tracked?
    requires st.slots[key].tracker.Deep? && st.slots[key].tracker.target.Obj?
    requires Encode(EncoderOf(st, key), SetOn(st.slots[key].tracker.target, p, v).value).Returned?
    ensures var r := Mutate(st, key, MemberSet(p, v));
            && |r.next.writes| == |st.writes| + 1
            && r.next.slots[key].Tracked? && |r.next.slots[key].tracker.layers| == 1
            && Current(r.next.slots[key]) == SetOn(st.slots[key].tracker.target, p, v).value
  {
    InterceptSavesAtMostOnce(st, key, MemberSet(p, v));
  }

  /** `$tryResolve(loadedKeys)` (lines 230-238): when someone waits and
      nothing is pending, every waiting resolver is called with
      `loadedKeys` and the waiting set is emptied; otherwise nothing
      happens. */
  function TryResolve(st: Session, loaded: set<Key>): (r: Session)
    ensures r == st.(waiters := r.waiters, fired := r.fired)
    ensures st.waiters == {} || st.pending != {} ==> r == st
    ensures st.pending == {} ==> r.waiters == {}
    ensures st.pending == {} && st.waiters != {} ==> r.fired == st.fired + [Firing(st.waiters, loaded)]
    ensures Valid(st) ==> Valid(r)
  {
    if |st.waiters| <= 0 || |st.pending| > 0 then st
    else st.(waiters := {}, fired := st.fired + [Firing(st.waiters, loaded)])
  }

  /** The `$loaded` getter (lines 58-68): with keys pending, a new resolver
      starts waiting and its number is returned; with none pending the
      settled result is returned and nothing waits. */
  function AwaitLoaded(st: Session): (r: (Session, Option<nat>))
    ensures st.pending == {} ==> r == (st, None)
    ensures st.pending != {} ==>
      && r.1.Some?
      && r.0 == st.(waiters := st.waiters + {r.1.value}, nextWaiter := r.1.value + 1)
    ensures Valid(st) && r.1.Some? ==> r.1.value !in st.waiters
    ensures Valid(st) ==> Valid(r.0)
    ensures NoStrandedWaiter(st) ==> NoStrandedWaiter(r.0)
  {
    if |st.pending| <= 0 then (st, None)
    else (st.(waiters := st.waiters + {st.nextWaiter}, nextWaiter := st.nextWaiter + 1), Some(st.nextWaiter))
  }

  /** `$load(key)` with the choice of whether a store miss resolves waiters. */
  function LoadWith(st: Session, key: Key, resolveOnMiss: bool): (r: Step<bool>)
    ensures key !in st.slots ==> r == Step(st, Returned(false))
    ensures key in st.slots ==> r.next.pending == st.pending - {key}
    ensures r.next.store == st.store && r.next.writes == st.writes
    ensures r.out.Returned? ==> (r.out.value <==> key in st.slots && key in st.store)
    ensures r.out == Returned(true) ==>
      && key in r.next.slots
      && r.next.slots == st.slots[key := r.next.slots[key]]
      && Decode(DecoderOf(st, key), st.store[key]) == Returned(Current(r.next.slots[key]))
    ensures r.out != Returned(true) ==> r.next.slots == st.slots
  {
    if key !in st.slots then Step(st, Returned(false))
    else
      var fetched := StoreGet(st.store, {key});
      var st1 := st.(pending := st.pending - {key});
      if key !in fetched then
        Step(if resolveOnMiss then TryResolve(st1, {}) else st1, Returned(false))
      else
        match Decode(DecoderOf(st, key), fetched[key])
        case Threw(e) => Step(st1, Threw(e))
        case Returned(d) =>
          Step(TryResolve(st1.(slots := st1.slots[key := Place(st1, key, d)]), {key}), Returned(true))
  }

  /** `$load(key)` (lines 240-259) with the not-found path resolving waiters
      too. An undeclared key answers false and changes nothing. A declared
      key stops being pending whether or not the store holds it; the answer
      is whether the store holds it, and only then does the key take the
      decoded stored value. Once nothing is pending, nobody is left
      waiting. */
  function Load(st: Session, key: Key): (r: Step<bool>)
    ensures key !in st.slots ==> r == Step(st, Returned(false))
    ensures key in st.slots ==> r.next.pending == st.pending - {key}
    ensures r.next.store == st.store && r.next.writes == st.writes
    ensures r.out.Returned? ==> (r.out.value <==> key in st.slots && key in st.store)
    ensures r.out == Returned(true) ==>
      && key in r.next.slots
      && r.next.slots == st.slots[key := r.next.slots[key]]
      && Decode(DecoderOf(st, key), st.store[key]) == Returned(Current(r.next.slots[key]))
    ensures r.out != Returned(true) ==> r.next.slots == st.slots
    ensures r.out.Returned? && NoStrandedWaiter(st) ==> NoStrandedWaiter(r.next)
    ensures Valid(st) ==> Valid(r.next)
  {
    LoadWith(st, key, true)
  }

  /** `$load(key)` as written: a store miss returns before `$tryResolve`. */
  function LoadAsWritten(st: Session, key: Key): (r: Step<bool>)
    ensures key in st.slots ==> r.next.pending == st.pending - {key}
    ensures r.out.Returned? ==> (r.out.value <==> key in st.slots && key in st.store)
    ensures key in st.slots && key !in st.store ==> r.next.waiters == st.waiters
  {
    LoadWith(st, key, false)
  }

  /** The keys of `ks` whose fetched value is defined. */
  function Defined(ks: seq<Key>, fetched: map<Key, Value>): set<Key> {
    set k | k in ks && k in fetched && fetched[k] != Undefined
  }

  /** The loop of `$loadAll` (lines 266-275) over the fetched entries in
      order: an entry whose value is `undefined` is skipped; any other is
      decoded and becomes the key's value (`raw` keeps the undecoded value
      when auto-save is off, as the code as written does). The first
      decoding that raises ends the loop. Returns the keys it set. */
  function InstallAll(st: Session, ks: seq<Key>, fetched: map<Key, Value>, raw: bool): (r: Step<set<Key>>)
    requires Distinct(ks)
    ensures r.next == st.(slots := r.next.slots)
    ensures st.slots.Keys <= r.next.slots.Keys <= st.slots.Keys + Defined(ks, fetched)
    ensures forall k :: k in st.slots && k !in Defined(ks, fetched) ==> r.next.slots[k] == st.slots[k]
    ensures r.out.Returned? ==> r.out.value == Defined(ks, fetched)
    ensures r.out.Returned? && !raw ==> forall k :: k in Defined(ks, fetched) ==>
      k in r.next.slots && Decode(DecoderOf(st, k), fetched[k]) == Returned(Current(r.next.slots[k]))
    ensures Valid(st) && Defined(ks, fetched) <= st.slots.Keys ==> Valid(r.next) && r.next.slots.Keys == st.slots.Keys
    decreases |ks|
  {
    if |ks| == 0 then Step(st, Returned({}))
    else
      var k := ks[0];
      assert Distinct(ks[1..]);
      assert forall j :: j in ks[1..] ==> j != k;
      assert Defined(ks, fetched) == Defined(ks[1..], fetched) + (if k in fetched && fetched[k] != Undefined then {k} else {});
      if k !in fetched || fetched[k] == Undefined then InstallAll(st, ks[1..], fetched, raw)
      else
        match Decode(DecoderOf(st, k), fetched[k])
        case Threw(e) => Step(st, Threw(e))
        case Returned(d) =>
          var st1 := st.(slots := st.slots[k := Place(st, k, if raw && !st.autoSave then fetched[k] else d)]);
          assert forall j :: DecoderOf(st1, j) == DecoderOf(st, j);
          PlaceKeepsValid(st, k, if raw && !st.autoSave then fetched[k] else d);
          assert Valid(st) && Defined(ks, fetched) <= st.slots.Keys ==>
            Valid(st1) && st1.slots.Keys == st.slots.Keys && Defined(ks[1..], fetched) <= st1.slots.Keys;
          var rest := InstallAll(st1, ks[1..], fetched, raw);
          match rest.out
          case Threw(e) => rest
          case Returned(done) => Step(rest.next, Returned({k} + done))
  }

  /** Setting a declared key's slot as `Place` builds it keeps the invariant. */
  lemma PlaceKeepsValid(st: Session, k: Key, v: Value)
    ensures Valid(st) && k in st.slots ==> Valid(st.(slots := st.slots[k := Place(st, k, v)]))
  {
  }

  /** `$loadAll` with the choice of what an auto-save-off registry keeps. */
  function LoadAllWith(st: Session, order: seq<Key>, raw: bool): (r: Step<set<Key>>)
    requires Distinct(order) && forall k :: k in order <==> k in st.pending
    ensures r.next.pending == {}
    ensures r.next.store == st.store && r.next.writes == st.writes
    ensures forall k :: k in st.slots && k !in Defined(order, StoreGet(st.store, st.pending)) ==>
      k in r.next.slots && r.next.slots[k] == st.slots[k]
    ensures r.out.Returned? ==> r.out.value == Defined(order, StoreGet(st.store, st.pending))
    ensures r.out.Returned? && !raw ==> forall k :: k in r.out.value ==>
      k in r.next.slots && Decode(DecoderOf(st, k), st.store[k]) == Returned(Current(r.next.slots[k]))
    ensures r.out.Returned? ==> r.next.waiters == {}
    ensures r.out.Returned? && st.waiters != {} ==> r.next.fired == st.fired + [Firing(st.waiters, r.out.value)]
    ensures !raw && Valid(st) ==> Valid(r.next) && r.next.slots.Keys == st.slots.Keys
  {
    var fetched := StoreGet(st.store, st.pending);
    var st0 := st.(pending := {});
    assert forall k :: DecoderOf(st0, k) == DecoderOf(st, k);
    assert Valid(st) ==> Valid(st0) && Defined(order, fetched) <= st0.slots.Keys;
    var run := InstallAll(st0, order, fetched, raw);
    match run.out
    case Threw(e) => run
    case Returned(loaded) => Step(TryResolve(run.next, loaded), run.out)
  }

  /** `$loadAll()` (lines 261-278) with each value decoded. Reading the
      store once for every pending key, it empties the pending set before
      anything else; it returns exactly the pending keys the store holds a
      defined value for, and exactly those keys change, each to its decoded
      stored value. Waiting resolvers are then called with those keys. The
      visiting order `order` is the order the store's answer lists the
      pending keys in. */
  function LoadAll(st: Session, order: seq<Key>): (r: Step<set<Key>>)
    requires Distinct(order) && forall k :: k in order <==> k in st.pending
    ensures r.next.pending == {}
    ensures r.next.store == st.store && r.next.writes == st.writes
    ensures r.out.Returned? ==>
      r.out.value == set k | k in st.pending && k in st.store && st.store[k] != Undefined
    ensures r.out.Returned? ==> forall k :: k in r.out.value ==>
      k in r.next.slots && Decode(DecoderOf(st, k), st.store[k]) == Returned(Current(r.next.slots[k]))
    ensures forall k :: k in st.slots && !(k in st.pending && k in st.store && st.store[k] != Undefined) ==>
      k in r.next.slots && r.next.slots[k] == st.slots[k]
    ensures r.out.Returned? ==> r.next.waiters == {}
    ensures r.out.Returned? && st.waiters != {} ==> r.next.fired == st.fired + [Firing(st.waiters, r.out.value)]
    ensures Valid(st) ==> Valid(r.next) && r.next.slots.Keys == st.slots.Keys
  {
    assert Defined(order, StoreGet(st.store, st.pending))
        == set k | k in st.pending && k in st.store && st.store[k] != Undefined;
    LoadAllWith(st, order, false)
  }

  /** `$loadAll()` as written: with auto-save off, line 273 keeps the stored
      value undecoded. */
  function LoadAllAsWritten(st: Session, order: seq<Key>): (r: Step<set<Key>>)
    requires Distinct(order) && forall k :: k in order <==> k in st.pending
    ensures r.next.pending == {}
    ensures r.out.Returned? ==> r.out.value == Defined(order, StoreGet(st.store, st.pending))
  {
    LoadAllWith(st, order, true)
  }

  /** A resolver that starts waiting while keys are pending is called by the
      next `$loadAll` that completes, with exactly the keys it loaded. */
  lemma WaiterFiresOnLoadAll(st: Session, order: seq<Key>)
    requires Valid(st) && st.pending != {}
    requires Distinct(order) && forall k :: k in order <==> k in st.pending
    ensures var (st1, w) := AwaitLoaded(st);
            var r := LoadAll(st1, order);
            r.out.Returned? ==>
              && |r.next.fired| == |st.fired| + 1
              && w.Some? && w.value in r.next.fired[|st.fired|].resolvers
              && r.next.fired[|st.fired|].loaded == r.out.value
  {
  }

  /** A key entry of the constructor's `definitions`: a `SessionValue` with its
      codecs, or a bare initial value (no codecs). */
  datatype Definition = Definition(key: Key, initial: Value, enc: Encoder, dec: Decoder)

  function KeysOfDefs(ds: seq<Definition>): (ks: seq<Key>)
    ensures |ks| == |ds| && forall i :: 0 <= i < |ds| ==> ks[i] == ds[i].key
  {
    seq(|ds|, i requires 0 <= i < |ds| => ds[i].key)
  }

  /** The keys the definitions declare. */
  function DefKeys(ds: seq<Definition>): set<Key> {
    set k | k in KeysOfDefs(ds)
  }

  lemma DefKeysCons(ds: seq<Definition>)
    requires |ds| > 0
    ensures KeysOfDefs(ds) == [ds[0].key] + KeysOfDefs(ds[1..])
    ensures DefKeys(ds) == {ds[0].key} + DefKeys(ds[1..])
  {
    assert KeysOfDefs(ds) == [ds[0].key] + KeysOfDefs(ds[1..]);
  }

  /** `$defineItem` for each definition in turn. */
  function DefineAll(st: Session, ds: seq<Definition>): (r: Step<()>)
    requires Distinct(KeysOfDefs(ds))
    requires forall k :: k in KeysOfDefs(ds) ==> k !in st.slots
    ensures r.out == Returned(())
    ensures r.next.slots.Keys == st.slots.Keys + DefKeys(ds)
    ensures r.next.pending == st.pending + DefKeys(ds)
    ensures r.next.autoSave == st.autoSave
    ensures r.next.store == st.store && r.next.waiters == st.waiters && r.next.writes == st.writes
    ensures Valid(st) ==> Valid(r.next)
    decreases |ds|
  {
    if |ds| == 0 then Step(st, Returned(()))
    else
      var d := DefineItem(st, ds[0].key, ds[0].initial, ds[0].enc, ds[0].dec);
      DefKeysCons(ds);
      var rest := DefineAll(d.next, ds[1..]);
      rest
  }

  /** `new SessionValues(definitions, { autoSave })` (lines 40-56): auto-save
      is on unless the option is exactly `false`; each definition declares a
      key; with definitions given, `$loadAll` runs over all of them and its
      answer is what `$loaded` settles to. After it, nothing is pending, and
      the keys loaded are exactly the declared keys the store holds a
      defined value for. */
  function Create(defs: Option<seq<Definition>>, autoSave: Option<bool>, store: map<Key, Value>): (r: Step<set<Key>>)
    requires defs.Some? ==> Distinct(KeysOfDefs(defs.value))
    ensures r.next.autoSave == (autoSave != Some(false))
    ensures r.next.pending == {}
    ensures Valid(r.next)
    ensures defs.Some? ==> r.next.slots.Keys == DefKeys(defs.value)
    ensures defs.Some? && r.out.Returned? ==>
      r.out.value == set k | k in r.next.slots && k in store && store[k] != Undefined
    ensures defs.None? ==> r.out == Returned({}) && r.next.slots == map[]
  {
    var st0 := Empty(autoSave != Some(false), store);
    match defs
    case None => Step(st0, Returned({}))
    case Some(ds) =>
      var d := DefineAll(st0, ds);
      assert Valid(d.next) && d.next.pending == d.next.slots.Keys == DefKeys(ds);
      assert forall k :: k in KeysOfDefs(ds) <==> k in d.next.pending;
      var r := LoadAll(d.next, KeysOfDefs(ds));
      assert r.next.slots.Keys == d.next.pending;
      r
  }

  /** A Set written to a key with the default Set codecs comes back from the
      store as the same Set: the setter stores the member array, and
      `$load` turns it back into a Set. */
  lemma SetSurvivesStore(st: Session, key: Key, v: Value)
    requires key in st.slots && EncoderOf(st, key) == SetToArray && DecoderOf(st, key) == ArrayToSet
    requires v.SetV? && WellFormed(v) && forall i :: 0 <= i < |v.members| ==> JsonStable(v.members[i])
    ensures var w := Write(st, key, v);
            var l := Load(w.next, key);
            && w.out == Returned(())
            && l.out == Returned(true)
            && Current(l.next.slots[key]) == v
  {
    ArrayOfStableIsStable(v.members);
    SetRoundTrip(v);
  }

  /** A Map written to a key with the default Map codecs comes back from the
      store as the same Map: the setter stores the entry pairs, and `$load`
      rebuilds the Map from them. */
  lemma MapSurvivesStore(st: Session, key: Key, v: Value)
    requires key in st.slots && EncoderOf(st, key) == MapToEntries && DecoderOf(st, key) == EntriesToMap
    requires v.MapV? && WellFormed(v)
    requires forall i :: 0 <= i < |v.entries| ==> JsonStable(v.entries[i].key) && JsonStable(v.entries[i].val)
    ensures var w := Write(st, key, v);
            var l := Load(w.next, key);
            && w.out == Returned(())
            && l.out == Returned(true)
            && Current(l.next.slots[key]) == v
  {
    var es := v.entries;
    var items := seq(|es|, i requires 0 <= i < |es| => Arr([es[i].key, es[i].val]));
    assert SerializeMap(v) == Returned(Arr(items));
    forall i | 0 <= i < |items| ensures JsonStable(items[i]) {
      ArrayOfStableIsStable([es[i].key, es[i].val]);
    }
    ArrayOfStableIsStable(items);
    MapRoundTrip(v);
  }

  /** Loading with auto-save off, as written, leaves the stored array where
      the declared Set should be; decoding, as every other path does, gives
      the Set back. */
  lemma RawLoadKeepsArray(st: Session, key: Key, xs: seq<Value>)
    requires Valid(st) && !st.autoSave && st.pending == {key}
    requires key in st.store && st.store[key] == Arr(xs) && Distinct(xs)
    requires DecoderOf(st, key) == ArrayToSet
    ensures var asWritten := LoadAllAsWritten(st, [key]);
            && asWritten.out == Returned({key})
            && key in asWritten.next.slots && Current(asWritten.next.slots[key]) == Arr(xs)
    ensures var corrected := LoadAll(st, [key]);
            && corrected.out == Returned({key})
            && key in corrected.next.slots && Current(corrected.next.slots[key]) == SetV(xs)
  {
    SetFromDistinct(xs);
    assert DeserializeSet(Arr(xs)) == Returned(SetV(xs));
    var fetched := StoreGet(st.store, st.pending);
    assert fetched == map[key := Arr(xs)];
    var st0 := st.(pending := {});
    assert DecoderOf(st0, key) == ArrayToSet;
    InstallOne(st0, key, Arr(xs), true);
    InstallOne(st0, key, Arr(xs), false);
  }

  /** The load loop over a single fetched key with a defined value that
      decodes: the key alone is set, to the decoded value (or, with `raw`
      and auto-save off, the stored one). */
  lemma InstallOne(st: Session, key: Key, v: Value, raw: bool)
    requires key in st.slots && v != Undefined && Decode(DecoderOf(st, key), v).Returned?
    ensures InstallAll(st, [key], map[key := v], raw) ==
      Step(st.(slots := st.slots[key := Place(st, key, if raw && !st.autoSave then v else Decode(DecoderOf(st, key), v).value)]),
           Returned({key}))
  {
    assert [key][1..] == [];
    var d := if raw && !st.autoSave then v else Decode(DecoderOf(st, key), v).value;
    var st1 := st.(slots := st.slots[key := Place(st, key, d)]);
    assert InstallAll(st1, [], map[key := v], raw) == Step(st1, Returned({}));
    assert {key} + {} == {key};
  }

  /** As written, a `$load` that misses the store strands whoever waits:
      nothing is pending any more, yet the resolver is not called; only a
      later `$tryResolve` that finds nothing pending (a later `$load` hit or
      `$loadAll`) calls it. The corrected `Load` calls it at once. */
  lemma StrandedWaiterAsWritten()
    ensures var st := DefineAll(Empty(true, map[]), [Definition("count", Num(0), NoEncoder, NoDecoder)]).next;
            var (st1, w) := AwaitLoaded(st);
            var asWritten := LoadAsWritten(st1, "count");
            var corrected := Load(st1, "count");
            && w.Some?
            && asWritten.next.pending == {} && asWritten.next.waiters == {w.value}
            && !NoStrandedWaiter(asWritten.next)
            && corrected.next.waiters == {} && corrected.next.fired == st1.fired + [Firing({w.value}, {})]
  {
    var ds := [Definition("count", Num(0), NoEncoder, NoDecoder)];
    DefKeysCons(ds);
    var st := DefineAll(Empty(true, map[]), ds).next;
    assert st.pending == {"count"} && st.waiters == {};
  }

  /** A registry declaring `count` over a store that holds 5 settles with
      `count` loaded and the property reading 5. */
  lemma CountScenario()
    ensures var r := Create(Some([Definition("count", Num(0), NoEncoder, NoDecoder)]), None, map["count" := Num(5)]);
            && r.out == Returned({"count"})
            && "count" in r.next.slots && Current(r.next.slots["count"]) == Num(5)
  {
    var ds := [Definition("count", Num(0), NoEncoder, NoDecoder)];
    DefKeysCons(ds);
  }

  /** The registry declaring only `tags`, a Set, over an empty store: the
      Set is behind a collection wrapper and saved through the default Set
      encoder, so `SetAddStoresMembers` applies to it. */
  lemma TagsCreated()
    ensures var c := Create(Some([Definition("tags", SetV([]), NoEncoder, NoDecoder)]), None, map[]);
            && Valid(c.next)
            && "tags" in c.next.slots && c.next.slots["tags"] == Wrap(SetV([]), "tags")
            && c.next.slots["tags"].Tracked? && c.next.slots["tags"].tracker.Collection?
            && EncoderOf(c.next, "tags") == SetToArray
            && c.next.store == map[]
  {
    var ds := [Definition("tags", SetV([]), NoEncoder, NoDecoder)];
    DefKeysCons(ds);
    var d := DefineAll(Empty(true, map[]), ds);
    assert d.next.slots["tags"] == Wrap(SetV([]), "tags");
    assert EncoderOf(d.next, "tags") == SetToArray;
    var c := Create(Some(ds), None, map[]);
    assert c == LoadAll(d.next, ["tags"]);
  }

  /** Adding a member that survives the JSON round trip to members that
      survive it keeps every member surviving it. */
  lemma AddMemberStable(ms: seq<Value>, x: Value)
    requires JsonStable(x) && forall i :: 0 <= i < |ms| ==> JsonStable(ms[i])
    ensures forall i :: 0 <= i < |AddMember(ms, x)| ==> JsonStable(AddMember(ms, x)[i])
  {
    if x !in ms {
      var r := ms + [x];
      forall i | 0 <= i < |r| ensures JsonStable(r[i]) {
        if i < |ms| {
          assert r[i] == ms[i];
        }
      }
    }
  }

  /** A Set saved with the default Set encoder is stored as the array of its
      members when each member survives the JSON round trip. */
  lemma SetSavedForm(st: Session, key: Key)
    requires key in st.slots && Current(st.slots[key]).SetV? && EncoderOf(st, key) == SetToArray
    requires !DeepOverCollection(st.slots[key])
    requires forall i :: 0 <= i < |Current(st.slots[key]).members| ==> JsonStable(Current(st.slots[key]).members[i])
    ensures SavedForm(st, key) == Returned(Some(Arr(Current(st.slots[key]).members)))
  {
    ArrayOfStableIsStable(Current(st.slots[key]).members);
  }

  /** Adding to a wrapped Set that uses the default Set encoder makes one
      store call, which stores the members with the new one appended
      (unless it was already a member). */
  lemma SetAddStoresMembers(st: Session, key: Key, x: Value)
    requires Valid(st) && key in st.slots && st.slots[key].Tracked?
    requires st.slots[key].tracker.target.SetV? && EncoderOf(st, key) == SetToArray
    requires JsonStable(x) && forall i :: 0 <= i < |st.slots[key].tracker.target.members| ==>
      JsonStable(st.slots[key].tracker.target.members[i])
    ensures var r := Mutate(st, key, MethodCall(Add(x)));
            && r.out == Returned(true)
            && |r.next.writes| == |st.writes| + 1
            && r.next.store == st.store[key := Arr(AddMember(st.slots[key].tracker.target.members, x))]
  {
    var t := st.slots[key].tracker;
    var ms := AddMember(t.target.members, x);
    assert t.Collection?;
    var e := Intercept(t, MethodCall(Add(x)), false);
    assert e.after.target == SetV(ms) && e.saves == [key] && e.result == Returned(true);
    var r := Mutate(st, key, MethodCall(Add(x)));
    assert EncoderOf(r.next, key) == SetToArray;
    AddMemberStable(t.target.members, x);
    SetSavedForm(r.next, key);
  }

  /** As written, after a Set or Map is assigned to a key with auto-save on,
      `save` of that key raises a TypeError in the default serializer: the
      value stays, wrapped once more, and no store call is made. With the
      intended placement the same `save` makes one store call. */
  lemma SaveCollectionFailsAsWritten(st: Session, key: Key, v: Value)
    requires key in st.slots && st.autoSave && (v.SetV? || v.MapV?)
    requires EncoderOf(st, key).SetToArray? || EncoderOf(st, key).MapToEntries?
    ensures var st1 := st.(slots := st.slots[key := PlaceAsWritten(st, key, v)]);
            var r := SaveAsWritten(st1, [key]);
            && r.out == Threw(TypeError)
            && r.next.writes == st.writes && r.next.store == st.store
            && Current(r.next.slots[key]) == v
    ensures var st2 := st.(slots := st.slots[key := Place(st, key, v)]);
            var r := Save(st2, [key]);
            r.out.Returned? && |r.next.writes| == |st.writes| + 1
  {
    var st1 := st.(slots := st.slots[key := PlaceAsWritten(st, key, v)]);
    assert SpreadsWrapper(st1, key);
    assert [key][1..] == [];
    var st2 := st.(slots := st.slots[key := Place(st, key, v)]);
    assert !DeepOverCollection(st2.slots[key]);
    assert Encode(EncoderOf(st2, key), v).Returned?;
    assert SavedForm(st2, key).Returned?;
    assert CountDeclared(st2.slots.Keys, [key]) == 1;
  }

  /** As written, calling `add` on the Set a key holds with auto-save on
      raises a TypeError through the registry as well: the Set is
      unchanged and nothing is written. */
  lemma SetAddFailsInRegistryAsWritten(st: Session, key: Key, ms: seq<Value>, x: Value)
    requires key in st.slots && st.autoSave
    ensures var st1 := st.(slots := st.slots[key := PlaceAsWritten(st, key, SetV(ms))]);
            && st1.slots[key].Tracked?
            && Intercepts(st1.slots[key].tracker, MethodCall(Add(x)))
            && var r := MutateAsWritten(st1, key, MethodCall(Add(x)));
            && r.out == Threw(TypeError)
            && r.next.writes == st.writes && r.next.store == st.store
            && Current(r.next.slots[key]) == SetV(ms)
  {
    var st1 := st.(slots := st.slots[key := PlaceAsWritten(st, key, SetV(ms))]);
    assert DeepOverCollection(st1.slots[key]);
  }
}

=== FILE: tracking.dfy ===
/**
 Change tracking: the wrappers `$deepProxy` and `$proxySetOrMap` put around
 the objects, arrays, Sets and Maps a registry hands out. A wrapper is
 modelled as explicit state (its memo table `mapStore` and its
 `arrayChanging` flag) and each intercepted operation as a function that
 returns the new state and the `save(owner)` calls it makes, in order.

 `save` in the code as written wraps a value that is already wrapped once
 more, so a `Deep` tracker carries a stack of wrapper layers, innermost
 first; every intercepted write passes through each layer's trap.
 */
module Tracking {
  import opened JsValues
  import opened Codecs

  /** The in-place array mutators whose element writes are batched (lines 17-27). */
  const ArrayChangeMethods: set<string> :=
    {"copyWithin", "fill", "pop", "push", "reverse", "shift", "sort", "splice", "unshift"}

  /** The mutating Set methods (lines 28-32). */
  const SetChangeMethods: set<string> := {"add", "clear", "delete"}

  /** The mutating Map methods (lines 33-37). */
  const MapChangeMethods: set<string> := {"clear", "delete", "set"}

  /** An entry of a wrapper's `mapStore`: the `NO_PROXY` sentinel, or the
      wrapper (by identity) handed out for that property. */
  datatype CacheEntry = NoProxy | Memo(id: nat)

  /** The private state of one `$deepProxy` wrapper. */
  datatype Layer = Layer(cache: map<Prop, CacheEntry>, changing: bool)

  const FreshLayer: Layer := Layer(map[], false)

  /** A wrapped value. `Deep` is a `$deepProxy` stack over an object or array
      (`nextId` numbers the nested wrappers it hands out); `Collection` is a
      `$proxySetOrMap` wrapper over a Set or Map (`bound` names the methods
      it has memoised). `owner` is the registry key every save names. */
  datatype Tracker =
    | Deep(owner: Key, target: Value, layers: seq<Layer>, nextId: nat)
    | Collection(owner: Key, target: Value, bound: set<string>)

  /** What a registry stores under a key: a plain value or a wrapped one. */
  datatype Slot = Raw(value: Value) | Tracked(tracker: Tracker)

  /** The value a slot holds, seen through any wrappers. */
  function Current(s: Slot): Value {
    match s
    case Raw(v) => v
    case Tracked(t) => t.target
  }

  /** A wrapper as `$createProxyIfNecessary` makes it: one layer, nothing
      memoised, no batch running. */
  predicate Fresh(t: Tracker) {
    match t
    case Deep(_, _, layers, _) => layers == [FreshLayer]
    case Collection(_, _, bound) => bound == {}
  }

  /** A wrapper with a single layer and no batch running. */
  predicate Idle(t: Tracker) {
    t.Deep? ==> |t.layers| == 1 && !t.layers[0].changing
  }

  /** Which wrapper a value gets. */
  datatype Wrapping = Untracked | DeepProxy | CollectionProxy

  /** The dispatch of `$createProxyIfNecessary` as written (lines 104-113, and
      the same order at 145-153 and 160-164): `$isObject` is tested first and
      holds for Sets and Maps too, so they get a deep wrapper and the
      Set/Map branch is never reached. */
  function ClassifyAsWritten(v: Value): (w: Wrapping)
    ensures w == DeepProxy <==> IsObject(v)
    ensures w != CollectionProxy
  {
    if IsObject(v) then DeepProxy else Untracked
  }

  /** The dispatch the code evidently intends: objects and arrays get a deep
      wrapper, Sets and Maps a collection wrapper, anything else none. */
  function Classify(v: Value): (w: Wrapping)
    ensures w != Untracked <==> IsObject(v)
    ensures w == CollectionProxy <==> v.SetV? || v.MapV?
  {
    if v.Obj? || v.Arr? then DeepProxy
    else if v.SetV? || v.MapV? then CollectionProxy
    else Untracked
  }

  function WrapAs(w: Wrapping, v: Value, owner: Key): Slot {
    match w
    case Untracked => Raw(v)
    case DeepProxy => Tracked(Deep(owner, v, [FreshLayer], 0))
    case CollectionProxy => Tracked(Collection(owner, v, {}))
  }

  /** `$createProxyIfNecessary(value, key)` with the evident dispatch: every
      object is wrapped, fresh, on behalf of `owner`; the value seen through
      the wrapper is the value given. */
  function Wrap(v: Value, owner: Key): (s: Slot)
    ensures Current(s) == v
    ensures s.Tracked? <==> IsObject(v)
    ensures s.Tracked? ==> s.tracker.owner == owner && Fresh(s.tracker) && Idle(s.tracker)
    ensures s.Tracked? ==> (s.tracker.Collection? <==> v.SetV? || v.MapV?)
  {
    WrapAs(Classify(v), v, owner)
  }

  /** `$createProxyIfNecessary(value, key)` as written: Sets and Maps get a
      deep wrapper. */
  function WrapAsWritten(v: Value, owner: Key): (s: Slot)
    ensures Current(s) == v
    ensures s.Tracked? <==> IsObject(v)
    ensures s.Tracked? ==> s.tracker.Deep? && s.tracker.owner == owner && Fresh(s.tracker)
  {
    WrapAs(ClassifyAsWritten(v), v, owner)
  }

  /** Two values of the same kind of object (or both not objects). */
  predicate SameKind(a: Value, b: Value) {
    a.Obj? == b.Obj? && a.Arr? == b.Arr? && a.SetV? == b.SetV? && a.MapV? == b.MapV?
  }

  /** Wrapping an already wrapped value again, as `save` does in the code as
      written: a deep wrapper gains an outer layer. (Collection wrappers are
      never created by the code as written.) */
  function Rewrap(s: Slot): (r: Slot)
    ensures Current(r) == Current(s)
    ensures s.Tracked? && s.tracker.Deep? ==>
      r.Tracked? && r.tracker == s.tracker.(layers := s.tracker.layers + [FreshLayer])
    ensures !(s.Tracked? && s.tracker.Deep?) ==> r == s
  {
    match s
    case Tracked(Deep(o, v, layers, n)) => Tracked(Deep(o, v, layers + [FreshLayer], n))
    case _ => s
  }

  // ----- Plain property access on the wrapped value (Reflect.*) -----

  /** 2^32: array lengths lie below it. */
  const MaxLength: nat := 0x1_0000_0000

  /** An array index: a canonical numeric property name below 2^32 - 1;
      larger numbers name ordinary properties. */
  predicate IsArrayIndex(p: Prop) {
    p.Index? && p.i < MaxLength - 1
  }

  /** The length a value denotes when assigned to an array's `length`:
      its `ToNumber`, when that is a whole number below 2^32. */
  function ArrayLength(v: Value): (n: Option<nat>)
    ensures n.Some? ==> n.value < MaxLength
    ensures v.Num? ==> (n.Some? <==> 0 <= v.n < MaxLength)
    ensures v.Num? && n.Some? ==> n.value == v.n
    ensures v.Null? ==> n == Some(0)
    ensures v.Undefined? ==> n.None?
  {
    match v
    case Num(x) => if 0 <= x < MaxLength then Some(x) else None
    case Null => Some(0)
    case Bool(b) => Some(if b then 1 else 0)
    case _ => None
  }

  /** An array resized to `n` elements; new slots are holes, read as `undefined`. */
  function Resize(es: seq<Value>, n: nat): (r: seq<Value>)
    ensures |r| == n
    ensures forall i :: 0 <= i < n && i < |es| ==> r[i] == es[i]
    ensures forall i :: |es| <= i < n ==> r[i] == Undefined
  {
    if n <= |es| then es[..n] else es + seq(n - |es|, _ => Undefined)
  }

  /** `Reflect.get(target, prop)` for an own property; other names (inherited
      methods included) read as `undefined`. */
  function Lookup(target: Value, p: Prop): (r: Value)
    ensures !(target.Obj? || target.Arr?) ==> r == Undefined
    ensures target.Obj? ==> (p in target.fields ==> r == target.fields[p]) && (p !in target.fields ==> r == Undefined)
    ensures target.Arr? && IsArrayIndex(p) ==> r == (if p.i < |target.elems| then target.elems[p.i] else Undefined)
    ensures target.Arr? && p == Named("length") ==> r == Num(|target.elems|)
    ensures target.Arr? && !IsArrayIndex(p) && p != Named("length") ==> r == Undefined
  {
    match target
    case Obj(fs) => if p in fs then fs[p] else Undefined
    case Arr(es) =>
      if IsArrayIndex(p) && p.i < |es| then es[p.i]
      else if p == Named("length") then Num(|es|)
      else Undefined
    case _ => Undefined
  }

  /** `Reflect.set(target, prop, value)`. Writing an index past the end of an
      array grows it; writing `length` resizes it and raises a RangeError for
      a value that is not a valid length. */
  function SetOn(target: Value, p: Prop, v: Value): (r: Outcome<Value>)
    ensures r.Threw? <==> target.Arr? && p == Named("length") && ArrayLength(v).None?
    ensures r.Threw? ==> r.error == RangeError
    ensures r.Returned? && (target.Obj? || (target.Arr? && IsArrayIndex(p))) ==> Lookup(r.value, p) == v
    ensures r.Returned? && target.Obj? ==> r.value.Obj? && r.value.fields.Keys == target.fields.Keys + {p}
    ensures r.Returned? ==> forall q :: q != p && target.Obj? ==> Lookup(r.value, q) == Lookup(target, q)
    ensures r.Returned? && target.Arr? ==> r.value.Arr?
    ensures r.Returned? && target.Arr? && p == Named("length") ==> |r.value.elems| == ArrayLength(v).value
  {
    match target
    case Obj(fs) => Returned(Obj(fs[p := v]))
    case Arr(es) =>
      if IsArrayIndex(p) then
        if p.i < |es| then Returned(Arr(es[p.i := v]))
        else Returned(Arr(Resize(es, p.i) + [v]))
      else if p == Named("length") then
        match ArrayLength(v)
        case Some(n) => Returned(Arr(Resize(es, n)))
        case None => Threw(RangeError)
      else Returned(target)
    case _ => Returned(target)
  }

  /** `Reflect.deleteProperty(target, prop)`: the new value and the boolean
      result. Deleting an array element leaves a hole; an array's `length`
      cannot be deleted. */
  function DeleteOn(target: Value, p: Prop): (r: (Value, bool))
    ensures !r.1 <==> target.Arr? && p == Named("length")
    ensures target.Obj? ==> r.0 == Obj(target.fields - {p}) && Lookup(r.0, p) == Undefined
    ensures target.Arr? ==> r.0.Arr? && |r.0.elems| == |target.elems|
    ensures r.1 && (target.Obj? || target.Arr?) ==> Lookup(r.0, p) == Undefined
    ensures forall q :: q != p ==> Lookup(r.0, q) == Lookup(target, q)
  {
    match target
    case Obj(fs) => (Obj(fs - {p}), true)
    case Arr(es) =>
      if IsArrayIndex(p) && p.i < |es| then (Arr(es[p.i := Undefined]), true)
      else (target, p != Named("length"))
    case _ => (target, true)
  }

  // ----- The traps of $deepProxy -----

  /** What a property read through a deep wrapper returns: a plain value, a
      nested wrapper (by identity), or the batching wrapper of an array
      mutator. */
  datatype Answer = Got(v: Value) | Wrapper(id: nat) | BulkMethod(name: string)

  predicate IsObjectRead(r: Answer) {
    r.Wrapper? || (r.Got? && IsObject(r.v))
  }

  predicate IsBulkMethod(target: Value, p: Prop) {
    target.Arr? && p.Named? && p.name in ArrayChangeMethods
  }

  datatype ReadResult = ReadResult(read: Answer, layers: seq<Layer>, next: nat)

  /** The `get` trap (lines 126-157) of a stack of layers, outermost last.
      The outer layer answers from its memo table when it holds a wrapper;
      otherwise it reads through the inner layers, hands out the batching
      wrapper for an array mutator, passes values it marked `NO_PROXY`
      through, and memoises a new wrapper for an object value or `NO_PROXY`
      for anything else. A plain answer is the property's current value. */
  function ReadLayers(target: Value, layers: seq<Layer>, p: Prop, next: nat): (r: ReadResult)
    ensures |r.layers| == |layers|
    ensures forall i :: 0 <= i < |layers| ==> r.layers[i].changing == layers[i].changing
    ensures r.next >= next
    ensures r.read.Got? ==> r.read.v == Lookup(target, p)
    decreases |layers|
  {
    if |layers| == 0 then ReadResult(Got(Lookup(target, p)), [], next)
    else
      var outer := layers[|layers| - 1];
      if p in outer.cache && outer.cache[p].Memo? then ReadResult(Wrapper(outer.cache[p].id), layers, next)
      else
        var inner := ReadLayers(target, layers[..|layers| - 1], p, next);
        if IsBulkMethod(target, p) then
          ReadResult(BulkMethod(p.name), inner.layers + [outer], inner.next)
        else if p in outer.cache then
          ReadResult(inner.read, inner.layers + [outer], inner.next)
        else if IsObjectRead(inner.read) then
          ReadResult(Wrapper(inner.next), inner.layers + [outer.(cache := outer.cache[p := Memo(inner.next)])], inner.next + 1)
        else
          ReadResult(inner.read, inner.layers + [outer.(cache := outer.cache[p := NoProxy])], inner.next)
  }

  /** A property read through a deep wrapper, and the wrapper's state after it. */
  function Read(t: Tracker, p: Prop): (r: (Answer, Tracker))
    requires t.Deep?
    ensures r.1.Deep? && r.1.owner == t.owner && r.1.target == t.target
    ensures |r.1.layers| == |t.layers|
    ensures r.0.Got? ==> r.0.v == Lookup(t.target, p)
  {
    var res := ReadLayers(t.target, t.layers, p, t.nextId);
    (res.read, t.(layers := res.layers, nextId := res.next))
  }

  /** The inductive step of `ReadLayersStable`: the outer layer holds no
      wrapper for `p`, and a second read through the inner layers changes
      nothing. */
  predicate StableStepCase(target: Value, layers: seq<Layer>, p: Prop, next: nat) {
    && |layers| > 0
    && var outer := layers[|layers| - 1];
    && !(p in outer.cache && outer.cache[p].Memo?)
    && var inner := ReadLayers(target, layers[..|layers| - 1], p, next);
    && ReadLayers(target, inner.layers, p, inner.next) == inner
  }

  /** The step when the outer layer passes the read through unchanged: an
      array mutator, or a property it already marked. */
  lemma StableStepKept(target: Value, layers: seq<Layer>, p: Prop, next: nat)
    requires StableStepCase(target, layers, p, next)
    requires IsBulkMethod(target, p) || p in layers[|layers| - 1].cache
    ensures var r := ReadLayers(target, layers, p, next);
            ReadLayers(target, r.layers, p, r.next) == r
  {
    var inner := ReadLayers(target, layers[..|layers| - 1], p, next);
    var r := ReadLayers(target, layers, p, next);
    assert r.layers[..|layers| - 1] == inner.layers;
    assert r.layers[|layers| - 1] == layers[|layers| - 1];
  }

  /** The step when the outer layer memoises a new wrapper. */
  lemma StableStepWrapped(target: Value, layers: seq<Layer>, p: Prop, next: nat)
    requires StableStepCase(target, layers, p, next)
    requires !IsBulkMethod(target, p) && p !in layers[|layers| - 1].cache
    requires IsObjectRead(ReadLayers(target, layers[..|layers| - 1], p, next).read)
    ensures var r := ReadLayers(target, layers, p, next);
            ReadLayers(target, r.layers, p, r.next) == r
  {
    var inner := ReadLayers(target, layers[..|layers| - 1], p, next);
    var r := ReadLayers(target, layers, p, next);
    assert r.layers[|layers| - 1].cache[p] == Memo(inner.next);
  }

  /** The step when the outer layer marks the property `NO_PROXY`. */
  lemma StableStepMarked(target: Value, layers: seq<Layer>, p: Prop, next: nat)
    requires StableStepCase(target, layers, p, next)
    requires !IsBulkMethod(target, p) && p !in layers[|layers| - 1].cache
    requires !IsObjectRead(ReadLayers(target, layers[..|layers| - 1], p, next).read)
    ensures var r := ReadLayers(target, layers, p, next);
            ReadLayers(target, r.layers, p, r.next) == r
  {
    var inner := ReadLayers(target, layers[..|layers| - 1], p, next);
    var r := ReadLayers(target, layers, p, next);
    assert r.layers[..|layers| - 1] == inner.layers;
    assert r.layers[|layers| - 1].cache[p] == NoProxy;
  }

  /** Reading a property a second time changes nothing and returns the same
      answer. */
  lemma {:induction false} ReadLayersStable(target: Value, layers: seq<Layer>, p: Prop, next: nat)
    ensures var r := ReadLayers(target, layers, p, next);
            ReadLayers(target, r.layers, p, r.next) == r
    decreases |layers|
  {
    if |layers| > 0 {
      var outer := layers[|layers| - 1];
      if !(p in outer.cache && outer.cache[p].Memo?) {
        var inner := ReadLayers(target, layers[..|layers| - 1], p, next);
        ReadLayersStable(target, layers[..|layers| - 1], p, next);
        assert StableStepCase(target, layers, p, next);
        if IsBulkMethod(target, p) || p in outer.cache {
          StableStepKept(target, layers, p, next);
        } else if IsObjectRead(inner.read) {
          StableStepWrapped(target, layers, p, next);
        } else {
          StableStepMarked(target, layers, p, next);
        }
      }
    }
  }

  /** Reading the same property twice returns the identical wrapper (or the
      same value) and leaves the wrapper state as the first read left it. */
  lemma ReadIsStable(t: Tracker, p: Prop)
    requires t.Deep?
    ensures Read(Read(t, p).1, p) == Read(t, p)
  {
    ReadLayersStable(t.target, t.layers, p, t.nextId);
  }

  /** Every wrapper held in a memo table stands for a property whose current
      value is an object: a memoised wrapper never outlives its value. */
  predicate MemoCoherent(target: Value, layers: seq<Layer>) {
    forall i, q :: 0 <= i < |layers| && q in layers[i].cache && layers[i].cache[q].Memo? ==>
      IsObject(Lookup(target, q))
  }

  predicate Coherent(t: Tracker) {
    t.Deep? ==> MemoCoherent(t.target, t.layers)
  }

  /** Every wrapper number held in a memo table lies below `n`. */
  predicate MemoBelow(layers: seq<Layer>, n: nat) {
    forall i, q :: 0 <= i < |layers| && q in layers[i].cache && layers[i].cache[q].Memo? ==>
      layers[i].cache[q].id < n
  }

  /** A read keeps the memo tables coherent, and a wrapper it hands out
      stands for an object. */
  lemma {:induction false} ReadLayersCoherent(target: Value, layers: seq<Layer>, p: Prop, next: nat)
    requires MemoCoherent(target, layers)
    ensures var r := ReadLayers(target, layers, p, next);
            MemoCoherent(target, r.layers) && (r.read.Wrapper? ==> IsObject(Lookup(target, p)))
    decreases |layers|
  {
    if |layers| > 0 {
      var init := layers[..|layers| - 1];
      var outer := layers[|layers| - 1];
      if !(p in outer.cache && outer.cache[p].Memo?) {
        assert MemoCoherent(target, init) by {
          forall i, q | 0 <= i < |init| && q in init[i].cache && init[i].cache[q].Memo?
            ensures IsObject(Lookup(target, q))
          {
            assert init[i] == layers[i];
          }
        }
        ReadLayersCoherent(target, init, p, next);
        var inner := ReadLayers(target, init, p, next);
        var r := ReadLayers(target, layers, p, next);
        assert r.layers[..|init|] == inner.layers;
        forall i, q | 0 <= i < |r.layers| && q in r.layers[i].cache && r.layers[i].cache[q].Memo?
          ensures IsObject(Lookup(target, q))
        {
          if i < |init| {
            assert r.layers[i] == inner.layers[i];
          } else if q != p {
            assert r.layers[i].cache[q] == outer.cache[q];
          }
        }
      }
    }
  }

  /** A read keeps the counter above every wrapper number in the memo
      tables and above the wrapper it answers with. */
  lemma {:induction false} ReadLayersBelow(target: Value, layers: seq<Layer>, p: Prop, next: nat)
    requires MemoBelow(layers, next)
    ensures var r := ReadLayers(target, layers, p, next);
            MemoBelow(r.layers, r.next) && (r.read.Wrapper? ==> r.read.id < r.next)
    decreases |layers|
  {
    if |layers| > 0 {
      var init := layers[..|layers| - 1];
      var outer := layers[|layers| - 1];
      if !(p in outer.cache && outer.cache[p].Memo?) {
        assert MemoBelow(init, next) by {
          forall i, q | 0 <= i < |init| && q in init[i].cache && init[i].cache[q].Memo?
            ensures init[i].cache[q].id < next
          {
            assert init[i] == layers[i];
          }
        }
        ReadLayersBelow(target, init, p, next);
        var inner := ReadLayers(target, init, p, next);
        var r := ReadLayers(target, layers, p, next);
        assert r.layers[..|init|] == inner.layers;
        forall i, q | 0 <= i < |r.layers| && q in r.layers[i].cache && r.layers[i].cache[q].Memo?
          ensures r.layers[i].cache[q].id < r.next
        {
          if i < |init| {
            assert r.layers[i] == inner.layers[i];
          } else if q != p {
            assert r.layers[i].cache[q] == outer.cache[q];
          }
        }
      }
    }
  }

  /** Every memo entry after a read is either one it found or numbered from
      `next` on. */
  lemma {:induction false} ReadLayersKeepOrNew(target: Value, layers: seq<Layer>, p: Prop, next: nat)
    ensures var r := ReadLayers(target, layers, p, next);
            forall i, q :: 0 <= i < |layers| && q in r.layers[i].cache && r.layers[i].cache[q].Memo? ==>
              (q in layers[i].cache && layers[i].cache[q] == r.layers[i].cache[q]) || next <= r.layers[i].cache[q].id
    decreases |layers|
  {
    if |layers| > 0 {
      var init := layers[..|layers| - 1];
      var outer := layers[|layers| - 1];
      if !(p in outer.cache && outer.cache[p].Memo?) {
        ReadLayersKeepOrNew(target, init, p, next);
        var inner := ReadLayers(target, init, p, next);
        var r := ReadLayers(target, layers, p, next);
        assert r.layers[..|init|] == inner.layers;
        forall i, q | 0 <= i < |layers| && q in r.layers[i].cache && r.layers[i].cache[q].Memo?
          ensures (q in layers[i].cache && layers[i].cache[q] == r.layers[i].cache[q]) || next <= r.layers[i].cache[q].id
        {
          if i < |init| {
            assert r.layers[i] == inner.layers[i];
            assert layers[i] == init[i];
          } else if q != p {
            assert r.layers[i].cache[q] == outer.cache[q];
          }
        }
      }
    }
  }

  /** A read never reuses a wrapper number: every memo entry after it is
      either one it found or numbered from `next` on, above every number in
      use before it, and the counter stays above every number handed out. */
  lemma {:induction false} ReadLayersFreshIds(target: Value, layers: seq<Layer>, p: Prop, next: nat)
    requires MemoBelow(layers, next)
    ensures var r := ReadLayers(target, layers, p, next);
            && MemoBelow(r.layers, r.next)
            && (r.read.Wrapper? ==> r.read.id < r.next)
            && (forall i, q :: 0 <= i < |layers| && q in r.layers[i].cache && r.layers[i].cache[q].Memo? ==>
                  (q in layers[i].cache && layers[i].cache[q] == r.layers[i].cache[q]) || next <= r.layers[i].cache[q].id)
  {
    ReadLayersBelow(target, layers, p, next);
    ReadLayersKeepOrNew(target, layers, p, next);
  }

  /** A read through a wrapper keeps its memo tables coherent; a wrapper it
      answers with stands for an object; and a wrapper it creates carries a
      number no earlier wrapper of the stack carries. */
  lemma ReadKeepsInvariants(t: Tracker, p: Prop)
    requires t.Deep?
    ensures Coherent(t) ==> Coherent(Read(t, p).1)
    ensures Coherent(t) && Read(t, p).0.Wrapper? ==> IsObject(Lookup(t.target, p))
    ensures MemoBelow(t.layers, t.nextId) ==>
      MemoBelow(Read(t, p).1.layers, Read(t, p).1.nextId) && (Read(t, p).0.Wrapper? ==> Read(t, p).0.id < Read(t, p).1.nextId)
  {
    if Coherent(t) {
      ReadLayersCoherent(t.target, t.layers, p, t.nextId);
    }
    if MemoBelow(t.layers, t.nextId) {
      ReadLayersFreshIds(t.target, t.layers, p, t.nextId);
    }
  }

  /** The result of an intercepted operation: the wrapper afterwards, the
      `save(owner)` calls made, in order, and how the operation ended. */
  datatype Effect = Effect(after: Tracker, saves: seq<Key>, result: Outcome<bool>)

  /** The number of layers whose trap saves: those not inside a batch. */
  function IdleCount(layers: seq<Layer>): (n: nat)
    ensures n <= |layers|
    ensures (forall i :: 0 <= i < |layers| ==> layers[i].changing) ==> n == 0
    ensures (forall i :: 0 <= i < |layers| ==> !layers[i].changing) ==> n == |layers|
  {
    if |layers| == 0 then 0
    else (if layers[0].changing then 0 else 1) + IdleCount(layers[1..])
  }

  function Repeat(k: Key, n: nat): (r: seq<Key>)
    ensures |r| == n && forall i :: 0 <= i < n ==> r[i] == k
  {
    seq(n, _ => k)
  }

  /** The indices a write removes: writing an array's `length` cuts off every
      index at or past the new length. */
  function CutBy(target: Value, p: Prop, v: Value): (cut: Option<nat>)
    ensures cut.Some? <==> target.Arr? && p == Named("length") && ArrayLength(v).Some?
    ensures cut.Some? ==> cut == ArrayLength(v)
  {
    if target.Arr? && p == Named("length") then ArrayLength(v) else None
  }

  /** A memo table after a write of `p`: `p` is marked `NO_PROXY`, and, given
      a cut, the entries of the indices the write removed are dropped. */
  function AfterWrite(cache: map<Prop, CacheEntry>, p: Prop, cut: Option<nat>): (c: map<Prop, CacheEntry>)
    ensures p in c && c[p] == NoProxy
    ensures forall q :: q in c && q != p ==> q in cache && c[q] == cache[q]
    ensures forall q :: q in cache && q != p && !(cut.Some? && q.Index? && q.i >= cut.value) ==> q in c
    ensures cut.Some? ==> forall q :: q in c && q != p && q.Index? ==> q.i < cut.value
  {
    if cut.None? then cache[p := NoProxy]
    else (map q | q in cache && !(q.Index? && q.i >= cut.value) :: cache[q])[p := NoProxy]
  }

  /** The `set` trap (lines 159-170) through every layer: the write reaches the
      target, each layer marks the property `NO_PROXY` (and, with `dropCut`,
      forgets the indices a `length` write cut off), and each layer not
      inside a batch saves the owner. A write that raises reaches no trap's
      bookkeeping. */
  function SetMemberWith(t: Tracker, p: Prop, v: Value, dropCut: bool): (e: Effect)
    requires t.Deep?
    ensures e.after.Deep? && e.after.owner == t.owner && e.after.nextId == t.nextId
    ensures |e.after.layers| == |t.layers|
    ensures forall i :: 0 <= i < |t.layers| ==> e.after.layers[i].changing == t.layers[i].changing
    ensures SameKind(e.after.target, t.target)
    ensures e.result.Threw? ==> e.after == t && e.saves == []
    ensures e.result.Returned? ==>
      && Returned(e.after.target) == SetOn(t.target, p, v)
      && (forall i :: 0 <= i < |t.layers| ==>
            e.after.layers[i].cache == AfterWrite(t.layers[i].cache, p, if dropCut then CutBy(t.target, p, v) else None))
      && e.saves == Repeat(t.owner, IdleCount(t.layers))
    ensures |t.layers| == 1 && e.result.Returned? ==>
      e.saves == (if t.layers[0].changing then [] else [t.owner])
  {
    match SetOn(t.target, p, v)
    case Threw(err) => Effect(t, [], Threw(err))
    case Returned(target) =>
      var cut := if dropCut then CutBy(t.target, p, v) else None;
      var layers := seq(|t.layers|, i requires 0 <= i < |t.layers| =>
                          t.layers[i].(cache := AfterWrite(t.layers[i].cache, p, cut)));
      Effect(t.(target := target, layers := layers), Repeat(t.owner, IdleCount(t.layers)), Returned(true))
  }

  /** The `set` trap as written: only the written property's memo entry is
      touched, so after `length` shrinks an array the wrappers memoised for
      the removed elements stay in the memo tables. */
  function SetMemberAsWritten(t: Tracker, p: Prop, v: Value): (e: Effect)
    requires t.Deep?
    ensures e.after.Deep? && |e.after.layers| == |t.layers|
    ensures e.result.Returned? ==>
      forall i :: 0 <= i < |t.layers| ==> e.after.layers[i].cache == t.layers[i].cache[p := NoProxy]
  {
    SetMemberWith(t, p, v, false)
  }

  /** A write changes no property other than the one written, except the
      indices a `length` write cuts off. */
  lemma SetOnKeeps(target: Value, p: Prop, v: Value, q: Prop)
    requires SetOn(target, p, v).Returned? && q != p && IsObject(Lookup(target, q))
    requires !(CutBy(target, p, v).Some? && q.Index? && q.i >= CutBy(target, p, v).value)
    ensures Lookup(SetOn(target, p, v).value, q) == Lookup(target, q)
  {
    if target.Arr? {
      var es := target.elems;
      assert IsArrayIndex(q) && q.i < |es|;
      if IsArrayIndex(p) && p.i >= |es| {
        assert SetOn(target, p, v).value.elems[q.i] == Resize(es, p.i)[q.i];
      }
    }
  }

  /** The `set` trap with the memo entries of removed indices dropped keeps
      every memo table coherent. */
  lemma SetMemberKeepsCoherent(t: Tracker, p: Prop, v: Value)
    requires t.Deep?
    ensures Coherent(t) ==> Coherent(SetMemberWith(t, p, v, true).after)
  {
    var e := SetMemberWith(t, p, v, true);
    if Coherent(t) && e.result.Returned? {
      var cut := CutBy(t.target, p, v);
      forall i, q | 0 <= i < |e.after.layers| && q in e.after.layers[i].cache && e.after.layers[i].cache[q].Memo?
        ensures IsObject(Lookup(e.after.target, q))
      {
        var c := e.after.layers[i].cache;
        assert c == AfterWrite(t.layers[i].cache, p, cut);
        assert q != p;
        assert q in t.layers[i].cache && t.layers[i].cache[q] == c[q];
        assert IsObject(Lookup(t.target, q));
        SetOnKeeps(t.target, p, v, q);
      }
    }
  }

  /** The `set` trap with the memo entries of removed indices dropped: it
      keeps every memo table coherent. */
  function SetMember(t: Tracker, p: Prop, v: Value): (e: Effect)
    requires t.Deep?
    ensures Coherent(t) ==> Coherent(e.after)
    ensures e.after.Deep? && |e.after.layers| == |t.layers|
    ensures e.result.Returned? && t.target.Arr? && p == Named("length") ==>
      e.after.target.Arr? && forall i, q :: 0 <= i < |t.layers| && q in e.after.layers[i].cache && q.Index? ==> q.i < |e.after.target.elems|
  {
    SetMemberKeepsCoherent(t, p, v);
    SetMemberWith(t, p, v, true)
  }

  /** The `deleteProperty` trap (lines 172-178) through every layer: the
      delete reaches the target, each layer forgets its memo entry for the
      property, and each layer not inside a batch saves the owner, even when
      the delete itself was refused. Memo tables stay coherent. */
  function DeleteMember(t: Tracker, p: Prop): (e: Effect)
    requires t.Deep?
    ensures e.after.Deep? && e.after.owner == t.owner && e.after.nextId == t.nextId
    ensures |e.after.layers| == |t.layers|
    ensures forall i :: 0 <= i < |t.layers| ==> e.after.layers[i].changing == t.layers[i].changing
    ensures e.after.target == DeleteOn(t.target, p).0 && SameKind(e.after.target, t.target)
    ensures e.result == Returned(DeleteOn(t.target, p).1)
    ensures forall i :: 0 <= i < |t.layers| ==> e.after.layers[i].cache == t.layers[i].cache - {p}
    ensures e.saves == Repeat(t.owner, IdleCount(t.layers))
    ensures |t.layers| == 1 ==> e.saves == (if t.layers[0].changing then [] else [t.owner])
    ensures Coherent(t) ==> Coherent(e.after)
  {
    var (target, ok) := DeleteOn(t.target, p);
    var layers := seq(|t.layers|, i requires 0 <= i < |t.layers| =>
                        t.layers[i].(cache := t.layers[i].cache - {p}));
    Effect(t.(target := target, layers := layers), Repeat(t.owner, IdleCount(t.layers)), Returned(ok))
  }

  /** A step a built-in array mutator takes on the array it runs on (through
      the wrapper, since the wrapper is its receiver): an element or length
      write, an element delete, or an exception from code the caller passed
      in (a comparator, say). */
  datatype Internal = ISet(p: Prop, v: Value) | IDelete(p: Prop) | IThrow

  predicate AllChanging(layers: seq<Layer>) {
    forall i :: 0 <= i < |layers| ==> layers[i].changing
  }

  function SetFlags(layers: seq<Layer>, b: bool): (r: seq<Layer>)
    ensures |r| == |layers|
    ensures forall i :: 0 <= i < |r| ==> r[i] == layers[i].(changing := b)
  {
    seq(|layers|, i requires 0 <= i < |layers| => layers[i].(changing := b))
  }

  /** Element writes and deletes through the traps, one after another (with
      the corrected `set` trap when `fixed`): the internal steps of a
      mutator, or the caller's own statements. The first step that raises
      ends the run (a refused delete raises a TypeError, as built-in mutators
      and strict-mode code delete-or-throw). While every layer is inside a
      batch, no step saves and every flag stays raised. */
  function RunInternal(t: Tracker, ops: seq<Internal>, fixed: bool): (e: Effect)
    requires t.Deep?
    ensures e.after.Deep? && e.after.owner == t.owner
    ensures |e.after.layers| == |t.layers|
    ensures forall i :: 0 <= i < |t.layers| ==> e.after.layers[i].changing == t.layers[i].changing
    ensures AllChanging(t.layers) ==> e.saves == []
    ensures SameKind(e.after.target, t.target)
    ensures fixed && Coherent(t) ==> Coherent(e.after)
    decreases |ops|
  {
    if |ops| == 0 then Effect(t, [], Returned(true))
    else
      var step :=
        match ops[0]
        case ISet(p, v) => if fixed then SetMember(t, p, v) else SetMemberAsWritten(t, p, v)
        case IDelete(p) =>
          var d := DeleteMember(t, p);
          if d.result == Returned(false) then d.(result := Threw(TypeError)) else d
        case IThrow => Effect(t, [], Threw(CallerError));
      if step.result.Threw? then step
      else
        var rest := RunInternal(step.after, ops[1..], fixed);
        Effect(rest.after, step.saves + rest.saves, rest.result)
  }

  /** A batched array mutator as written (lines 132-140): every layer raises
      its `arrayChanging` flag, the mutator runs, then every layer lowers its
      flag and saves once. If the mutator raises, the flags stay raised and
      nothing is saved. */
  function BulkAsWritten(t: Tracker, ops: seq<Internal>): (e: Effect)
    requires t.Deep? && t.target.Arr?
    ensures e.after.Deep? && e.after.owner == t.owner && |e.after.layers| == |t.layers|
    ensures SameKind(e.after.target, t.target)
    ensures e.result.Returned? ==> e.saves == Repeat(t.owner, |t.layers|)
    ensures e.result.Returned? ==> forall i :: 0 <= i < |t.layers| ==> !e.after.layers[i].changing
    ensures e.result.Threw? ==> e.saves == [] && AllChanging(e.after.layers)
  {
    var run := RunInternal(t.(layers := SetFlags(t.layers, true)), ops, false);
    if run.result.Threw? then run
    else Effect(run.after.(layers := SetFlags(run.after.layers, false)), Repeat(t.owner, |t.layers|), run.result)
  }

  /** A batched array mutator with its flag lowered and its save made in a
      `finally` clause: however many element writes the mutator makes, and
      whether or not it raises, each layer saves exactly once and no flag is
      left raised. Memo tables stay coherent. */
  function Bulk(t: Tracker, ops: seq<Internal>): (e: Effect)
    requires t.Deep? && t.target.Arr?
    ensures e.after.Deep? && e.after.owner == t.owner && |e.after.layers| == |t.layers|
    ensures SameKind(e.after.target, t.target)
    ensures e.saves == Repeat(t.owner, |t.layers|)
    ensures forall i :: 0 <= i < |t.layers| ==> !e.after.layers[i].changing
    ensures |t.layers| == 1 ==> e.saves == [t.owner]
    ensures Coherent(t) ==> Coherent(e.after)
  {
    var run := RunInternal(t.(layers := SetFlags(t.layers, true)), ops, true);
    Effect(run.after.(layers := SetFlags(run.after.layers, false)), Repeat(t.owner, |t.layers|), run.result)
  }

  /** A mutator that raises, called through a fresh wrapper as written,
      leaves the wrapper's flag raised: the next property write through that
      wrapper, and any run of later writes and deletes, goes unsaved and
      leaves the flag raised. Only a later mutator call that completes
      lowers it (`BulkAsWritten`). */
  lemma ThrowingBulkSilencesLaterWrites(t: Tracker, ops: seq<Internal>, p: Prop, v: Value, later: seq<Internal>)
    requires t.Deep? && t.target.Arr? && |t.layers| == 1
    requires BulkAsWritten(t, ops).result.Threw?
    ensures BulkAsWritten(t, ops).saves == []
    ensures SetMemberAsWritten(BulkAsWritten(t, ops).after, p, v).saves == []
    ensures RunInternal(BulkAsWritten(t, ops).after, later, false).saves == []
    ensures AllChanging(RunInternal(BulkAsWritten(t, ops).after, later, false).after.layers)
  {
  }

  /** With the flag lowered in a `finally` clause, a property write after any
      mutator call, completed or not, saves once again. */
  lemma WritesAfterBulkAreSaved(t: Tracker, ops: seq<Internal>, p: Prop, v: Value)
    requires t.Deep? && t.target.Arr? && |t.layers| == 1
    requires p != Named("length") || ArrayLength(v).Some?
    ensures SetMember(Bulk(t, ops).after, p, v).result.Returned?
    ensures SetMember(Bulk(t, ops).after, p, v).saves == [t.owner]
  {
  }

  /** One concrete run: `sort` with a comparator that raises on its first
      call, before any element write, then `arr[0] = 5`. As written the
      write is not saved. */
  lemma StuckFlagExample()
    ensures var t := Deep("list", Arr([Num(2), Num(1)]), [FreshLayer], 0);
            var ops := [IThrow];
            && BulkAsWritten(t, ops).result == Threw(CallerError)
            && SetMemberAsWritten(BulkAsWritten(t, ops).after, Index(0), Num(5)).saves == []
            && SetMember(Bulk(t, ops).after, Index(0), Num(5)).saves == ["list"]
  {
  }

  /** As written, a wrapper memoised for an element outlives the element:
      after reading `arr[0]` (an object) and then shrinking the array with
      `arr.length = 0`, reading `arr[0]` again answers the old element's
      wrapper although the element is gone. With the cut-off entries dropped
      the read answers `undefined`. */
  lemma StaleMemoAfterTruncate(t: Tracker)
    requires t.Deep? && t.layers == [FreshLayer] && t.target.Arr?
    requires |t.target.elems| > 0 && IsObject(t.target.elems[0])
    ensures Read(t, Index(0)).0 == Wrapper(t.nextId)
    ensures var stale := SetMemberAsWritten(Read(t, Index(0)).1, Named("length"), Num(0)).after;
            Lookup(stale.target, Index(0)) == Undefined && Read(stale, Index(0)).0 == Wrapper(t.nextId)
    ensures Read(SetMember(Read(t, Index(0)).1, Named("length"), Num(0)).after, Index(0)).0 == Got(Undefined)
  {
    var t1 := Read(t, Index(0)).1;
    assert ReadLayers(t.target, [], Index(0), t.nextId).read == Got(t.target.elems[0]);
    assert t.layers[..0] == [];
    assert t1.layers[0].cache == map[Index(0) := Memo(t.nextId)];
    var stale := SetMemberAsWritten(t1, Named("length"), Num(0)).after;
    assert stale.layers[0].cache[Index(0)] == Memo(t.nextId);
    assert stale.target == Arr([]);
    var fixed := SetMember(t1, Named("length"), Num(0)).after;
    assert Index(0) !in fixed.layers[0].cache;
    assert fixed.layers[..0] == [];
    assert fixed.target == Arr([]);
    assert ReadLayers(fixed.target, [], Index(0), fixed.nextId).read == Got(Undefined);
  }

  /** A read after a write through a single wrapper: the write left
      `NO_PROXY` behind, so the read returns the stored value itself and
      creates no new wrapper. */
  lemma ReadAfterSet(t: Tracker, p: Prop, v: Value)
    requires t.Deep? && t.target.Obj? && |t.layers| == 1 && !IsObject(v)
    ensures var e := SetMember(t, p, v);
            Read(e.after, p) == (Got(v), e.after)
  {
    var e := SetMember(t, p, v);
    assert e.after.layers[0].cache == t.layers[0].cache[p := NoProxy];
    assert e.after.layers[..0] == [];
    assert Lookup(e.after.target, p) == v;
    var inner := ReadLayers(e.after.target, [], p, e.after.nextId);
    assert inner == ReadResult(Got(v), [], e.after.nextId);
    assert [] + [e.after.layers[0]] == e.after.layers;
    var r := ReadLayers(e.after.target, e.after.layers, p, e.after.nextId);
    assert r == ReadResult(Got(v), e.after.layers, e.after.nextId);
  }

  /** A read after a delete through a single wrapper answers `undefined`:
      the delete dropped the memo entry, so no stale wrapper is handed out. */
  lemma ReadAfterDelete(t: Tracker, p: Prop)
    requires t.Deep? && t.target.Obj? && |t.layers| == 1
    ensures Read(DeleteMember(t, p).after, p).0 == Got(Undefined)
  {
    var e := DeleteMember(t, p);
    assert p !in e.after.layers[0].cache;
    assert e.after.layers[..0] == [];
    assert ReadLayers(e.after.target, [], p, e.after.nextId).read == Got(Undefined);
  }

  // ----- $proxySetOrMap -----

  /** A Set or Map method call. */
  datatype Method = Add(x: Value) | Remove(x: Value) | ClearAll | Put(k: Value, v: Value) | Has(x: Value) | GetEntry(k: Value)

  function MethodName(m: Method): string {
    match m
    case Add(_) => "add"
    case Remove(_) => "delete"
    case ClearAll => "clear"
    case Put(_, _) => "set"
    case Has(_) => "has"
    case GetEntry(_) => "get"
  }

  /** The mutating methods of the wrapped collection's kind (lines 185-187). */
  function ChangeMethods(target: Value): set<string> {
    if target.SetV? then SetChangeMethods else MapChangeMethods
  }

  /** `Set.prototype.delete` on the member sequence. */
  function RemoveMember(ms: seq<Value>, x: Value): (r: seq<Value>)
    ensures Distinct(ms) ==> Distinct(r)
    ensures forall y :: y in r <==> y in ms && y != x
  {
    if |ms| == 0 then []
    else
      var rest := RemoveMember(ms[1..], x);
      if ms[0] == x then rest
      else
        assert Distinct(ms) ==> ms[0] !in ms[1..];
        [ms[0]] + rest
  }

  /** `Map.prototype.delete` on the entry sequence. */
  function RemoveKey(es: seq<Pair>, k: Value): (r: seq<Pair>)
    ensures Distinct(KeysOf(es)) ==> Distinct(KeysOf(r))
    ensures forall y :: y in KeysOf(r) <==> y in KeysOf(es) && y != k
  {
    if |es| == 0 then []
    else
      assert KeysOf(es) == [es[0].key] + KeysOf(es[1..]);
      var rest := RemoveKey(es[1..], k);
      if es[0].key == k then rest
      else
        var r := [es[0]] + rest;
        assert KeysOf(r) == [es[0].key] + KeysOf(rest);
        assert Distinct(KeysOf(es)) ==> es[0].key !in KeysOf(es[1..]);
        r
  }

  /** The bound built-in method applied to the collection itself. A Set has
      no `set` or `get`, a Map no `add`: looking one up gives `undefined`, and
      calling that raises a TypeError. */
  function Invoke(target: Value, m: Method): (r: Outcome<Value>)
    requires target.SetV? || target.MapV?
    ensures r.Returned? ==> (WellFormed(target) ==> WellFormed(r.value)) && SameKind(r.value, target)
    ensures r.Threw? <==> (target.SetV? && (m.Put? || m.GetEntry?)) || (target.MapV? && m.Add?)
    ensures r.Returned? && MethodName(m) !in ChangeMethods(target) ==> r.value == target
    ensures target.SetV? && m.Add? ==> r.Returned? && forall y :: y in r.value.members <==> y in target.members || y == m.x
  {
    match target
    case SetV(ms) =>
      (match m
       case Add(x) => Returned(SetV(AddMember(ms, x)))
       case Remove(x) => Returned(SetV(RemoveMember(ms, x)))
       case ClearAll => Returned(SetV([]))
       case Has(_) => Returned(target)
       case _ => Threw(TypeError))
    case MapV(es) =>
      (match m
       case Put(k, v) => Returned(MapV(MapPut(es, k, v)))
       case Remove(k) => Returned(MapV(RemoveKey(es, k)))
       case ClearAll => Returned(MapV([]))
       case Has(_) => Returned(target)
       case GetEntry(_) => Returned(target)
       case Add(_) => Threw(TypeError))
  }

  /** A method call through a collection wrapper with the owner key the code
      evidently means (lines 189-203): the call reaches the collection, the
      method is memoised, and a mutating method saves the owner exactly once
      after the collection changed; other methods save nothing. */
  function CallMethod(t: Tracker, m: Method): (e: Effect)
    requires t.Collection? && (t.target.SetV? || t.target.MapV?)
    ensures e.after.Collection? && e.after.owner == t.owner && SameKind(e.after.target, t.target)
    ensures e.result.Threw? ==> e.after == t && e.saves == []
    ensures e.result.Returned? ==> Invoke(t.target, m) == Returned(e.after.target)
    ensures e.result.Returned? ==>
      e.saves == (if MethodName(m) in ChangeMethods(t.target) then [t.owner] else [])
  {
    match Invoke(t.target, m)
    case Threw(err) => Effect(t, [], Threw(err))
    case Returned(target) =>
      var after := t.(target := target, bound := t.bound + {MethodName(m)});
      if MethodName(m) in ChangeMethods(t.target) then Effect(after, [t.owner], Returned(true))
      else Effect(after, [], Returned(true))
  }

  /** The same call as written: line 201 saves `key`, a name not in scope, so
      after the collection has changed the call raises a ReferenceError and
      nothing is saved. */
  function CallMethodAsWritten(t: Tracker, m: Method): (e: Effect)
    requires t.Collection? && (t.target.SetV? || t.target.MapV?)
    ensures e.saves == []
    ensures MethodName(m) in ChangeMethods(t.target) && Invoke(t.target, m).Returned? ==>
      e.result == Threw(ReferenceError) && e.after.target == Invoke(t.target, m).value
  {
    match Invoke(t.target, m)
    case Threw(err) => Effect(t, [], Threw(err))
    case Returned(target) =>
      var after := t.(target := target, bound := t.bound + {MethodName(m)});
      if MethodName(m) in ChangeMethods(t.target) then Effect(after, [], Threw(ReferenceError))
      else Effect(after, [], Returned(true))
  }

  /** A Set or Map method called through a deep wrapper, which is what the
      code as written gives a Set or Map: the method is read through the
      layers (and memoised as `NO_PROXY`), then runs with the wrapper as its
      receiver, which is not a Set or Map, and raises a TypeError. */
  function CallThroughDeep(t: Tracker, m: Method): (e: Effect)
    requires t.Deep? && (t.target.SetV? || t.target.MapV?)
    ensures e.result == Threw(TypeError) && e.saves == []
    ensures e.after.target == t.target
  {
    var (_, after) := Read(t, Named(MethodName(m)));
    Effect(after, [], Threw(TypeError))
  }

  /** As written, a Set handed out by a registry with auto-save on cannot be
      used: adding a member raises a TypeError, the Set is unchanged and
      nothing is saved. */
  lemma SetMethodsFailAsWritten(ms: seq<Value>, owner: Key, x: Value)
    ensures var s := WrapAsWritten(SetV(ms), owner);
            && s.Tracked? && s.tracker.Deep?
            && CallThroughDeep(s.tracker, Add(x)).result == Threw(TypeError)
            && CallThroughDeep(s.tracker, Add(x)).after.target == SetV(ms)
            && CallThroughDeep(s.tracker, Add(x)).saves == []
  {
  }

  /** With the evident dispatch, adding a member to a wrapped Set adds it and
      saves the owner exactly once. */
  lemma SetAddSavesOnce(ms: seq<Value>, owner: Key, x: Value)
    requires Distinct(ms)
    ensures var s := Wrap(SetV(ms), owner);
            && s.Tracked? && s.tracker.Collection?
            && CallMethod(s.tracker, Add(x)).saves == [owner]
            && (forall y :: y in CallMethod(s.tracker, Add(x)).after.target.members <==> y in ms || y == x)
  {
  }

  /** Were a Set given a collection wrapper, as written its `add` would
      change the Set and then raise a ReferenceError without saving; the
      evident `save(owner)` saves once. */
  lemma CollectionSaveFailsAsWritten(ms: seq<Value>, owner: Key, x: Value)
    ensures var t := Collection(owner, SetV(ms), {});
            && CallMethodAsWritten(t, Add(x)).result == Threw(ReferenceError)
            && CallMethodAsWritten(t, Add(x)).saves == []
            && CallMethodAsWritten(t, Add(x)).after.target == SetV(AddMember(ms, x))
            && CallMethod(t, Add(x)).result == Returned(true)
            && CallMethod(t, Add(x)).saves == [owner]
  {
  }
}

=== FILE: values.dfy ===
/**
 The values a session registry holds: the JSON data the host store accepts,
 plus the Set and Map collections that the default codecs translate to and
 from JSON arrays. Also the JSON round trip every store write goes through.
 */
module JsValues {

  /** A registry key: the name of the property a value is exposed under. */
  type Key = string

  /** A property name of an object or array: a plain name or an array index. */
  datatype Prop = Named(name: string) | Index(i: nat)

  /** A JavaScript value as far as the registry can observe it. Numbers are
      integers; a Set keeps its members in insertion order without
      duplicates, a Map keeps its entries in insertion order without
      duplicate keys (see `WellFormed`). */
  datatype Value =
    | Undefined
    | Null
    | Bool(b: bool)
    | Num(n: int)
    | Str(s: string)
    | Arr(elems: seq<Value>)
    | Obj(fields: map<Prop, Value>)
    | SetV(members: seq<Value>)
    | MapV(entries: seq<Pair>)

  /** One key/value entry of a Map. */
  datatype Pair = Pair(key: Value, val: Value)

  /** The exceptions the modelled code can raise. `CallerError` stands for
      anything thrown by code the caller supplies (a sort comparator, say). */
  datatype JsError = TypeError | RangeError | ReferenceError | CallerError

  /** How a JavaScript call ends: it returns a value or it throws. */
  datatype Outcome<+T> = Returned(value: T) | Threw(error: JsError)

  datatype Option<+T> = None | Some(value: T)

  /** `value && typeof value == 'object'`: true for every non-null object,
      including arrays, Sets and Maps. `undefined`, `null` and every
      primitive (falsy or of another `typeof`) give false. */
  predicate IsObject(v: Value) {
    v.Arr? || v.Obj? || v.SetV? || v.MapV?
  }

  /** `$isObject` is false exactly for `undefined`, `null` and the
      primitives: the falsy values and the other `typeof` results. */
  lemma IsObjectExactly(v: Value)
    ensures IsObject(v) <==> !(v.Undefined? || v.Null? || v.Bool? || v.Num? || v.Str?)
  {
  }

  predicate Distinct<T(==)>(s: seq<T>) {
    forall i, j :: 0 <= i < j < |s| ==> s[i] != s[j]
  }

  /** The keys of a Map's entries, in order. */
  function KeysOf(es: seq<Pair>): (ks: seq<Value>)
    ensures |ks| == |es|
    ensures forall i :: 0 <= i < |es| ==> ks[i] == es[i].key
  {
    seq(|es|, i requires 0 <= i < |es| => es[i].key)
  }

  /** The shape JavaScript's Set and Map guarantee for their contents. */
  predicate WellFormed(v: Value) {
    match v
    case SetV(ms) => Distinct(ms)
    case MapV(es) => Distinct(KeysOf(es))
    case _ => true
  }

  /** `JSON.parse(JSON.stringify(v))` for a value without cycles. `None`
      means the value serializes to nothing (it is `undefined`), so the
      property holding it is dropped. Inside an array such a value becomes
      `null`; a Set or Map has no own enumerable properties and becomes `{}`. */
  function ToJson(v: Value): (r: Option<Value>)
    ensures r.None? <==> v.Undefined?
    ensures v.SetV? || v.MapV? ==> r == Some(Obj(map[]))
    ensures v.Arr? ==> r.Some? && r.value.Arr? && |r.value.elems| == |v.elems|
    ensures v.Arr? ==> forall i :: 0 <= i < |v.elems| && v.elems[i].Undefined? ==> r.value.elems[i] == Null
    ensures v.Obj? ==>
      && r.Some? && r.value.Obj?
      && forall p :: p in r.value.fields <==> p in v.fields && !v.fields[p].Undefined?
  {
    match v
    case Undefined => None
    case Null => Some(v)
    case Bool(_) => Some(v)
    case Num(_) => Some(v)
    case Str(_) => Some(v)
    case Arr(es) =>
      Some(Arr(seq(|es|, i requires 0 <= i < |es| =>
                     match ToJson(es[i]) case Some(j) => j case None => Null)))
    case Obj(fs) =>
      Some(Obj(map p | p in fs && ToJson(fs[p]).Some? :: ToJson(fs[p]).value))
    case SetV(_) => Some(Obj(map[]))
    case MapV(_) => Some(Obj(map[]))
  }

  /** A value that survives the JSON round trip unchanged. */
  predicate JsonStable(v: Value) {
    ToJson(v) == Some(v)
  }

  /** An array survives the JSON round trip when each of its elements does. */
  lemma ArrayOfStableIsStable(es: seq<Value>)
    requires forall i :: 0 <= i < |es| ==> JsonStable(es[i])
    ensures JsonStable(Arr(es))
  {
    var j := seq(|es|, i requires 0 <= i < |es| =>
                   match ToJson(es[i]) case Some(x) => x case None => Null);
    assert ToJson(Arr(es)) == Some(Arr(j));
    assert j == es;
  }

  /** The JSON round trip never yields a Set, a Map or `undefined` anywhere:
      what comes back out of the store is plain JSON data. */
  predicate IsJson(v: Value) {
    match v
    case Undefined => false
    case SetV(_) => false
    case MapV(_) => false
    case Arr(es) => forall i :: 0 <= i < |es| ==> IsJson(es[i])
    case Obj(fs) => forall p :: p in fs ==> IsJson(fs[p])
    case _ => true
  }

  lemma {:induction false} ToJsonIsJson(v: Value)
    ensures ToJson(v).Some? ==> IsJson(ToJson(v).value)
    ensures ToJson(v).None? <==> v.Undefined?
  {
    match v
    case Arr(es) =>
      forall i | 0 <= i < |es| ensures ToJson(es[i]).Some? ==> IsJson(ToJson(es[i]).value) {
        ToJsonIsJson(es[i]);
      }
    case Obj(fs) =>
      forall p | p in fs ensures ToJson(fs[p]).Some? ==> IsJson(ToJson(fs[p]).value) {
        ToJsonIsJson(fs[p]);
      }
    case _ =>
  }
}
